=== FILE: README.md ===
# BasFurolhi word scramble, modelled in Dafny

BasFurolhi is a Telegram Web App anagram game in Dhivehi. The page loads a
JSON list of words. It shows a start screen and then deals words one at a
time, each scrambled into grapheme tiles. The player clicks tiles into answer
boxes to rebuild the word before a 20-second countdown runs out. Every right
answer scores a point. As the score grows, a difficulty table lets longer
words in. The game ends when a word times out or every word has been used.
At that point the score goes onto a ten-entry local leaderboard and is sent
to the Telegram host.

This project models the game logic of `web/script.js` as pure functions over
immutable state:

- `text.dfy`: words as sequences of graphemes (`Text`), and `Math.random()`
  draws with `Math.floor(u * n)` (`Random`).
- `difficulty.dfy`: the difficulty table and the length-bound recomputation
  done after each right answer (`Difficulty`).
- `wordpool.dfy`: choosing the next word, including the completion and
  fallback branches (`WordPool`).
- `scramble.dfy`: the Fisher–Yates `shuffleArray` and the bounded reshuffle
  loop (`Scramble`).
- `answer.dfy`: the tiles and answer boxes of one round. This covers tile
  clicks, box clicks, clearing and the string that is checked (`Answer`).
- `highscores.dfy`: `saveHighscore`, which pushes, sorts stably by
  descending score and keeps the first ten (`Highscores`).
- `session.dfy`: the whole page as a state machine (`Session`).
  - It covers the screens, the countdown, scoring and the pending
    `setTimeout(setupWord, …)` calls.
  - It covers what is saved and sent at game over.
  - One `Step` function handles each event a user, timer or network can
    deliver.
  - The invariant `Valid` holds for every reachable session.
- `scenario.dfy`: a whole game on any list of two three-grapheme words, such
  as "cat" and "dog", holding for every possible random draw (`Scenario`).

Randomness is a parameter. Every `Math.random()` value is passed in as a
real in [0, 1). Each property holds for all such values.

## Model

| member | source | states |
|---|---|---|
| Random.ScaleReaches | web/script.js:315 | Every index below `n` is `Math.floor(u * n)` for some draw `u` in [0, 1), so a random pick can land anywhere. |
| Text.ConcatAppend | web/script.js:376-381 | Joining the graphemes of two pieces gives the two joins concatenated. |
| Difficulty.ScanFindsLastReached | web/script.js:484-492 | On an ascending table, the `for … of difficultyLevels` loop with its early `break` yields the bound of the last level whose threshold the score reaches. |
| Difficulty.TierOf | web/script.js:8-14 | Every score has a last reached level in the table. |
| Difficulty.NextBoundTable | web/script.js:8-14 | After a right answer the bound is 3 graphemes below score 5, then 4, 5 and 6, and unlimited from score 20. The previous bound plays no part. |
| Difficulty.NextBoundAtZero | web/script.js:15 | At score zero the recomputed bound equals the starting bound of the first level. |
| Difficulty.NextBoundMonotone | web/script.js:484-497 | A higher score never gives a lower length bound. |
| WordPool.Candidates | web/script.js:300-311 | The collected indices are exactly the unused words whose grapheme count fits the bound, in increasing order. |
| WordPool.Select | web/script.js:314-353 | The chosen word is always an unused word. It fits the bound whenever some unused word does. Completion is only reported with as many used indices as words. The safeguard branch is only reached when every word is used. |
| WordPool.BelowSize | web/script.js:322 | A set of indices below `n` has at most `n` members, and exactly `n` only when it holds them all. This ties `usedWordIndices.size >= numWords` to every word being used. |
| WordPool.SelectWithinPool | web/script.js:319-353 | With used indices drawn from the list, the safeguard branch never runs. Completion happens exactly when every word has been used. |
| WordPool.SelectReachesEveryEligible | web/script.js:314-317 | Every unused in-budget word is picked by some draw. |
| WordPool.SelectFallbackReachesEveryUnused | web/script.js:328-345 | When no unused word fits the bound, every unused word of any length is picked by some draw. |
| Scramble.Swap | web/script.js:71-72 | The destructuring swap exchanges the two positions and leaves the rest alone. |
| Scramble.ShuffleFrom | web/script.js:66-75 | Fisher–Yates rearranges the array: it keeps the same multiset of elements and leaves positions at or above the current index alone. |
| Scramble.Retry | web/script.js:379-384 | The reshuffle loop stops within 100 attempts and keeps the graphemes. If it stops early on a word of more than one code unit, the tiles no longer spell the word. |
| Scramble.ScrambleWord | web/script.js:376-387 | The scrambled tiles rearrange the word's graphemes. Unless all 100 retries were spent, they never spell a word of two or more code units. |
| Scramble.ShortWordNoRetry | web/script.js:381 | A word of at most one code unit fails the `currentWord.length > 1` guard, so the first shuffle stands and no retry is spent. |
| Scramble.SingleGraphemeExhaustsRetries | web/script.js:381-386 | A word of one grapheme made of several code units passes the `currentWord.length > 1` guard but cannot be rearranged. It therefore always spends all 100 attempts and keeps the word as its only tile. |
| Answer.Fresh | web/script.js:366-408 | A new board has one empty box per tile and no tile used, and it is consistent. |
| Answer.FindEmpty | web/script.js:435 | `findIndex(slot => slot === null)` gives the lowest empty box, or -1 exactly when every box is filled. |
| Answer.Place | web/script.js:426-441 | Clicking an unused tile while a box is empty writes its grapheme and position into the lowest empty box and marks the tile used. Any other click changes nothing. |
| Answer.Remove | web/script.js:450-469 | Clicking a filled box empties it and frees exactly the tile it named. Clicking an empty box changes nothing. |
| Answer.ClearFrom | web/script.js:513-526 | From box `i` on, every box is emptied. A tile stays used only if no cleared box named it. |
| Answer.Clear | web/script.js:513-530 | Clearing empties every box and frees exactly the tiles the boxes named. |
| Answer.PlaceKeepsConsistent | web/script.js:426-441 | A tile click keeps the boxes and the used marks in step. |
| Answer.RemoveKeepsConsistent | web/script.js:450-469 | A box click keeps the boxes and the used marks in step. |
| Answer.ClearGivesFresh | web/script.js:513-530 | Clearing a consistent board gives back the board `setupWord` built for the same tiles. |
| Answer.RemoveUndoesPlace | web/script.js:435-459 | Clicking the box a tile just went into undoes that tile click. |
| Answer.PlaceRedoesRemove | web/script.js:435-459 | Emptying a box with only filled boxes before it, then clicking the tile it named, rebuilds the same board. |
| Answer.Conservation | web/script.js:426-469 | No tile is lost or duplicated. The graphemes in the boxes plus those of the unused tiles are exactly the tiles. |
| Answer.ConstructedIsJoin | web/script.js:473 | The checked string is the join of the filled boxes' graphemes, and an empty box adds nothing. |
| Answer.CompleteUsesEveryTile | web/script.js:443-444 | When the answer is checked, the boxes hold exactly the scrambled tiles. |
| Answer.NextTile | web/script.js:435-444 | When the first `j` boxes spell the word's first `j` graphemes, some unused tile carries the next one, and clicking it extends the spelling by one. The boxes are complete exactly after the last grapheme. |
| Answer.SpelledAll | web/script.js:473-475 | Boxes spelling every grapheme in order are complete, and they build the word itself. |
| Highscores.Insert | web/script.js:542 | Placing an entry after every entry that scores at least as much keeps the list descending. It adds exactly that one entry. |
| Highscores.SortDescending | web/script.js:542 | The sort returns a descending rearrangement of the list. |
| Highscores.Save | web/script.js:539-544 | The stored list is ranked: it is descending and holds at most ten entries, and it is as long as the capacity allows. |
| Highscores.SaveKeepsBest | web/script.js:539-544 | The stored entries are drawn from the old list plus the new entry, and no dropped entry outscores any kept one. Repeated entries are counted one by one, so a dropped copy of an entry is bound as well. |
| Highscores.SortKeepsDescending | web/script.js:542 | Sorting an already descending list changes nothing, because the sort is stable. |
| Highscores.SaveInserts | web/script.js:539-544 | On a ranked store, a save is the stable insertion of the new entry cut to ten: ties keep the older entry first. |
| Highscores.SaveExample | web/script.js:539-544 | Saving A:10, then B:30, then C:20 stores B:30, C:20, A:10. |
| Highscores.SaveLowIntoFull | web/script.js:539-544 | A new entry scoring no more than the lowest of ten stored entries is dropped, and the store is unchanged. |
| Session.DisplayName | web/script.js:533-536 | The name shown is the Telegram username if set, otherwise the first name, and the fallback when both are empty. It is never empty. |
| Session.Boot | web/script.js:532-536 | The page starts on the loading screen with no timer running, in a state satisfying the invariant. The player's name is the display name of the Telegram user, and the stored leaderboard is kept. |
| Session.ShowStart | web/script.js:127-138 | The start screen stops the timer and keeps the score, words, board, leaderboard and sent scores. |
| Session.ShowGameOver | web/script.js:152-185 | The game-over screen stops the timer and keeps the score. It saves (name, score) to the leaderboard and sends the score to the host once. |
| Session.Load | web/script.js:79-117 | The start screen appears exactly when a list of strings arrives that is non-empty and has a word within the first tier's length. Otherwise the loading screen stays. A non-empty list becomes the word pool, even when no word fits the first tier. An unusable or empty list leaves the pool as it was. |
| Session.StartGame | web/script.js:246-281 | Starting resets the score, used words and bound, and shows the game. It schedules one `setupWord` when there are words, and otherwise falls back to the start screen. |
| Session.Begin | web/script.js:355-422 | A chosen word is marked used and made current. Its tiles are the scramble of its graphemes on a fresh board, and the countdown restarts from 20. Unless all 100 retries were spent, the tiles of a word longer than one code unit do not already spell it. |
| Session.SetupWord | web/script.js:285-423 | `setupWord` either starts a round on an unused word, which fits the bound when any unused word does, or ends the game. Completion is reported only when every word is used. |
| Session.Tick | web/script.js:208-240 | A running countdown loses one second. At zero the game ends, showing the missed word, and the score is sent. A stopped timer is inert. |
| Session.CheckAnswer | web/script.js:472-510 | A right answer scores one point, stops the timer, recomputes the bound and schedules the next word. A wrong one leaves the state as it is. |
| Session.ClickTile | web/script.js:426-447 | A tile click places the tile. When that click fills the last empty box the answer is checked. The score changes only when that click completes a right answer, and then by exactly one. |
| Session.ClickBox | web/script.js:450-469 | A box click changes the board and nothing else in the session. The board stays consistent. |
| Session.ClearAttempt | web/script.js:513-530 | Clearing gives back the board the round started with. The timer keeps running and nothing is scored. |
| Session.Step | web/script.js:561-567 | Each control acts only while its screen is shown: start on the start screen, play-again and go-to-start on the game-over screen, and tiles, boxes and clear while playing. The word list is taken once, a stopped timer does not tick, and no event changes the player's name. Only the arrival of the list changes the word pool. |
| Session.RunSetup | web/script.js:274 | A scheduled `setupWord` that falls due runs whatever the screen, using up one pending call. It either deals an unused word, with the countdown restarted and the screen left as it is, or ends the game and saves and sends the score. With nothing pending it does nothing. |
| Session.GameOverButtons | web/script.js:563-567 | On the game-over screen, Play again starts a new game at score zero with the first word scheduled. Go to start shows the start screen and keeps the final score. |
| Session.ClearWhilePlaying | web/script.js:561 | While playing, Clear gives back the round's starting board, and the countdown keeps running. |
| Session.TickCountsDown | web/script.js:214-221 | A tick of a running countdown with more than one second left takes one second off and changes nothing else. |
| Session.StaleSetupReportsAgain | web/script.js:500 | A `setupWord` still pending after the game has ended runs anyway. With every word used it ends the game a second time, and the same score is saved and sent again. |
| Session.StepKeepsValid | web/script.js:561-567 | Every event keeps the session invariant. |
| Session.TimeoutEndsGame | web/script.js:208-240 | Left alone, a running round ends after exactly the seconds left. The game-over screen shows the missed word with the score unchanged, and that score is saved and sent. |
| Session.RunningBeforeTimeout | web/script.js:208-225 | Before the last second the round goes on and nothing is sent. |
| Session.StoppedTimerIsInert | web/script.js:227-234 | Once the timer is stopped, ticks change nothing. |
| Session.ScoreStepsByOne | web/script.js:472-481 | Outside a new start, the score never falls. It rises by one only on a tile click that completes the right answer. |
| Session.GameOverReports | web/script.js:152-185 | Each event either reports nothing or ends the game, saving and sending the current score exactly once. Reaching the game-over screen always reports. |
| Session.SetupEndsOnlyWhenExhausted | web/script.js:319-353 | In a reachable session `setupWord` never takes the safeguard branch, and it ends the game exactly when every word has been used. |
| Session.SolvedRoundScoresAgain | web/script.js:426-469 | Tiles stay clickable after a right answer until the next word arrives. Taking a grapheme out and clicking its tile again scores the same word twice and schedules a second `setupWord`. |
| Session.SolveFrom | web/script.js:426-510 | From a partly spelled board, clicking the right tiles in order finishes the word, scores the point and schedules the next word. |
| Session.RoundIsWinnable | web/script.js:366-444 | Every word of at least one grapheme can be won from the board `setupWord` lays out. One click per grapheme scores the point, stops the timer and schedules the next word. |
| Scenario.TwoWordGame | web/script.js:264-544 | On a list of two three-grapheme words, for any draws, one word comes first and the other second, and both can be won. Winning both ends the game as completed, saves a score of two and sends it. |
| Scenario.CatAndDog | web/script.js:264-544 | On the list "cat", "dog" the first word is one of them and the second is the other. Winning both ends the game with score two sent to the host. |

## Left out

- `bot.js`, the Telegram bot, is not part of this model. It sends the game, records each player's message and forwards received scores to Telegram, and it holds no game logic of the page.
- The DOM, CSS, messages, timer colours and the shake animation have no effect on the game state.
- `loadHighscores` and the last-score text only display state the model already holds.
- `fetch` and JSON parsing are left out. The model takes their outcome as a `Fetch` value: either a list of words or unusable.
- `localStorage` is modelled as the list it stores. Malformed stored JSON is not modelled.
- `Telegram.WebApp.ready` and `sendData` are left out. Sent scores are modelled as the `sent` list.
- `Intl.Segmenter` is left out: words arrive already split into graphemes. Strings follow an encoding convention: each UTF-16 code unit of a JavaScript string maps to one distinct `char`. The model only compares strings for equality and takes their length, so `currentWord.length` is the length of the join.
- A page opened outside Telegram, or without user data, is a `Player` with both names empty, which gives the fallback name as the code does.
- Math.random: each draw is a parameter, a real in [0, 1).
- Real time is not modelled. A scheduled `setupWord` is a pending count that may fire after any other event, which allows more orderings than the 100 ms and 1200 ms delays do.
- Answer.Constructed: checking compares the joined string with the word, as the code does, rather than grapheme by grapheme. Two different grapheme sequences with the same join would be accepted.
- Highscores.SaveInserts: stability is stated only for stored lists that are already descending. Any list `saveHighscore` itself wrote is descending.
- Session.RoundIsWinnable: requires at least one grapheme. An empty string in the word list has no boxes, so it can never be checked or won; such a round only ends by timeout.
- Session.TimeoutEndsGame: requires only a running timer. The rest of the invariant is not needed for the property.

=== FILE: answer.dfy ===
/** Building an answer from the scrambled tiles (web/script.js,
    `handleLetterClick`, `handleAnswerBoxClick`, `clearAttempt` and the
    comparison in `checkAnswer`). */
module Answer {
  import opened Text

  /** An answer box: `null`, or `{ grapheme, originalIndex }` naming the tile
      it came from. */
  datatype Slot = Empty | Filled(grapheme: string, origin: nat)

  /** One round's board: the scrambled tiles, each tile's `used` mark, and
      the answer boxes. */
  datatype Round = Round(tiles: seq<string>, used: seq<bool>, answer: seq<Slot>)

  /** The board `setupWord` builds: no tile used, one empty box per grapheme
      (the scramble keeps the grapheme count, so one per tile). */
  function Fresh(tiles: seq<string>): (r: Round)
    ensures Consistent(r)
    ensures |r.answer| == |r.tiles| == |tiles|
    ensures forall i :: 0 <= i < |r.answer| ==> r.answer[i].Empty?
  {
    var r := Round(tiles, seq(|tiles|, _ => false), seq(|tiles|, _ => Empty));
    assert Origins(r.answer) == {};
    r
  }

  /** The board after a reset: no tiles and no boxes. */
  const Blank: Round := Round([], [], [])

  /** The tile positions named by filled boxes. */
  function Origins(answer: seq<Slot>): set<nat> {
    set i | 0 <= i < |answer| && answer[i].Filled? :: answer[i].origin
  }

  /** The tile positions marked used. */
  function UsedTiles(used: seq<bool>): set<nat> {
    set k: nat | k < |used| && used[k]
  }

  /** The bookkeeping `handleLetterClick` and `handleAnswerBoxClick` keep in
      step: each filled box shows its tile's grapheme, no two filled boxes
      name the same tile, and the named tiles are exactly the used ones. */
  predicate Consistent(r: Round) {
    && |r.used| == |r.tiles|
    && (forall i :: 0 <= i < |r.answer| && r.answer[i].Filled? ==>
          r.answer[i].origin < |r.tiles| && r.answer[i].grapheme == r.tiles[r.answer[i].origin])
    && (forall i, j :: 0 <= i < j < |r.answer| && r.answer[i].Filled? && r.answer[j].Filled? ==>
          r.answer[i].origin != r.answer[j].origin)
    && Origins(r.answer) == UsedTiles(r.used)
  }

  /** `userAnswer.findIndex(slot => slot === null)`: the lowest empty box, or -1. */
  function FindEmpty(answer: seq<Slot>): (r: int)
    ensures -1 <= r < |answer|
    ensures r == -1 <==> forall i :: 0 <= i < |answer| ==> answer[i].Filled?
    ensures r >= 0 ==> answer[r].Empty? && forall i :: 0 <= i < r ==> answer[i].Filled?
  {
    if |answer| == 0 then -1
    else if answer[0].Empty? then 0
    else
      var k := FindEmpty(answer[1..]);
      if k == -1 then -1 else k + 1
  }

  /** `!userAnswer.includes(null)`. */
  predicate Complete(answer: seq<Slot>) {
    forall i :: 0 <= i < |answer| ==> answer[i].Filled?
  }

  /** A click on tile `k` takes effect: the tile exists, is not used, and a
      box is empty. */
  predicate CanPlace(r: Round, k: nat) {
    k < |r.tiles| && k < |r.used| && !r.used[k] && !Complete(r.answer)
  }

  /** `handleLetterClick` on tile `k`. A used tile is ignored; otherwise its
      grapheme and position go into the lowest empty box and the tile is
      marked used; with no empty box nothing changes. */
  function Place(r: Round, k: nat): (r': Round)
    ensures !CanPlace(r, k) ==> r' == r
    ensures CanPlace(r, k) ==>
      && r'.tiles == r.tiles
      && r'.used == r.used[k := true]
      && |r'.answer| == |r.answer|
      && exists j :: 0 <= j < |r.answer| && r.answer[j].Empty?
                  && (forall i :: 0 <= i < j ==> r.answer[i].Filled?)
                  && r'.answer == r.answer[j := Filled(r.tiles[k], k)]
  {
    if k >= |r.tiles| || k >= |r.used| || r.used[k] then r
    else
      var j := FindEmpty(r.answer);
      if j == -1 then r
      else r.(answer := r.answer[j := Filled(r.tiles[k], k)], used := r.used[k := true])
  }

  /** `handleAnswerBoxClick` on box `i`: a filled box is emptied and the tile
      it names is freed; an empty box (or a box that does not exist) is
      ignored. */
  function Remove(r: Round, i: nat): (r': Round)
    ensures i >= |r.answer| || r.answer[i].Empty? ==> r' == r
    ensures i < |r.answer| && r.answer[i].Filled? ==>
      && r'.tiles == r.tiles
      && r'.answer == r.answer[i := Empty]
      && |r'.used| == |r.used|
      && (forall k :: 0 <= k < |r.used| && k != r.answer[i].origin ==> r'.used[k] == r.used[k])
      && (r.answer[i].origin < |r.used| ==> !r'.used[r.answer[i].origin])
  {
    if i < |r.answer| && r.answer[i].Filled? then
      var o := r.answer[i].origin;
      r.(answer := r.answer[i := Empty], used := if o < |r.used| then r.used[o := false] else r.used)
    else r
  }

  /** The loop of `clearAttempt` from box `i` on: each filled box is emptied
      as a click on it would. */
  function ClearFrom(r: Round, i: nat): (r': Round)
    requires i <= |r.answer|
    ensures r'.tiles == r.tiles && |r'.answer| == |r.answer| && |r'.used| == |r.used|
    ensures forall j :: 0 <= j < i ==> r'.answer[j] == r.answer[j]
    ensures forall j :: i <= j < |r.answer| ==> r'.answer[j].Empty?
    ensures forall k :: 0 <= k < |r.used| ==>
      (r'.used[k] <==> r.used[k] && forall j :: i <= j < |r.answer| && r.answer[j].Filled? ==> r.answer[j].origin != k)
    decreases |r.answer| - i
  {
    if i == |r.answer| then r
    else
      var next := Remove(r, i);
      assert forall k :: 0 <= k < |r.used| ==>
        (next.used[k] <==> r.used[k] && (r.answer[i].Filled? ==> r.answer[i].origin != k));
      assert forall j :: i + 1 <= j < |r.answer| ==> next.answer[j] == r.answer[j];
      ClearFrom(next, i + 1)
  }

  /** `clearAttempt`: every box emptied and every tile they named freed. */
  function Clear(r: Round): (r': Round)
    ensures r'.tiles == r.tiles && |r'.answer| == |r.answer| && |r'.used| == |r.used|
    ensures forall j :: 0 <= j < |r'.answer| ==> r'.answer[j].Empty?
    ensures forall k :: 0 <= k < |r.used| ==> (r'.used[k] <==> r.used[k] && k !in Origins(r.answer))
  {
    ClearFrom(r, 0)
  }

  /** `userAnswer.map(item => item ? item.grapheme : '').join('')`. */
  function Constructed(answer: seq<Slot>): string {
    if |answer| == 0 then ""
    else (if answer[0].Filled? then answer[0].grapheme else "") + Constructed(answer[1..])
  }

  /** The graphemes of the filled boxes, left to right. */
  function FilledGraphemes(answer: seq<Slot>): seq<string> {
    if |answer| == 0 then []
    else (if answer[0].Filled? then [answer[0].grapheme] else []) + FilledGraphemes(answer[1..])
  }

  /** The graphemes of the tiles not yet used, left to right. */
  function UnusedGraphemes(tiles: seq<string>, used: seq<bool>): seq<string>
    requires |used| == |tiles|
  {
    if |tiles| == 0 then []
    else (if used[0] then [] else [tiles[0]]) + UnusedGraphemes(tiles[1..], used[1..])
  }

  /** The number of filled boxes. */
  function FilledCount(answer: seq<Slot>): nat {
    |FilledGraphemes(answer)|
  }

  lemma OriginsFill(answer: seq<Slot>, j: nat, g: string, k: nat)
    requires j < |answer| && answer[j].Empty?
    ensures Origins(answer[j := Filled(g, k)]) == Origins(answer) + {k}
  {
    var a' := answer[j := Filled(g, k)];
    forall o | o in Origins(answer) ensures o in Origins(a') {
      var i :| 0 <= i < |answer| && answer[i].Filled? && answer[i].origin == o;
      assert a'[i] == answer[i];
    }
    assert a'[j].origin == k;
  }

  lemma OriginsVacate(answer: seq<Slot>, i: nat)
    requires i < |answer| && answer[i].Filled?
    requires forall a, b :: 0 <= a < b < |answer| && answer[a].Filled? && answer[b].Filled? ==>
               answer[a].origin != answer[b].origin
    ensures Origins(answer[i := Empty]) == Origins(answer) - {answer[i].origin}
  {
    var a' := answer[i := Empty];
    forall o | o in Origins(answer) && o != answer[i].origin ensures o in Origins(a') {
      var x :| 0 <= x < |answer| && answer[x].Filled? && answer[x].origin == o;
      assert a'[x] == answer[x];
    }
    forall o | o in Origins(a') ensures o != answer[i].origin {
      var x :| 0 <= x < |a'| && a'[x].Filled? && a'[x].origin == o;
      assert x != i;
      if x < i {
        assert answer[x].origin != answer[i].origin;
      } else {
        assert answer[i].origin != answer[x].origin;
      }
    }
  }

  lemma UsedTilesUpdate(used: seq<bool>, k: nat, b: bool)
    requires k < |used|
    ensures UsedTiles(used[k := b]) == if b then UsedTiles(used) + {k} else UsedTiles(used) - {k}
  {
  }

  /** Placing a tile keeps the board consistent. */
  lemma PlaceKeepsConsistent(r: Round, k: nat)
    requires Consistent(r)
    ensures Consistent(Place(r, k))
  {
    if CanPlace(r, k) {
      var j := FindEmpty(r.answer);
      var r' := Place(r, k);
      assert r'.answer == r.answer[j := Filled(r.tiles[k], k)];
      OriginsFill(r.answer, j, r.tiles[k], k);
      UsedTilesUpdate(r.used, k, true);
      assert k !in Origins(r.answer);
      forall i | 0 <= i < |r.answer| && i != j && r.answer[i].Filled?
        ensures r.answer[i].origin != k
      {
        assert r.answer[i].origin in Origins(r.answer);
      }
    }
  }

  /** Emptying a box keeps the board consistent. */
  lemma RemoveKeepsConsistent(r: Round, i: nat)
    requires Consistent(r)
    ensures Consistent(Remove(r, i))
  {
    if i < |r.answer| && r.answer[i].Filled? {
      OriginsVacate(r.answer, i);
      UsedTilesUpdate(r.used, r.answer[i].origin, false);
    }
  }

  /** Clearing a consistent board frees every tile: it is the fresh board of
      the same tiles again. */
  lemma ClearGivesFresh(r: Round)
    requires Consistent(r) && |r.answer| == |r.tiles|
    ensures Clear(r) == Fresh(r.tiles)
  {
    var c := Clear(r);
    forall k | 0 <= k < |r.used| ensures !c.used[k] {
      if r.used[k] {
        assert k in UsedTiles(r.used);
      }
    }
    assert c.used == Fresh(r.tiles).used;
    assert c.answer == Fresh(r.tiles).answer;
  }

  /** Emptying the box a tile just went into undoes the placement. */
  lemma RemoveUndoesPlace(r: Round, k: nat)
    requires Consistent(r) && CanPlace(r, k)
    ensures FindEmpty(r.answer) >= 0
    ensures Remove(Place(r, k), FindEmpty(r.answer) as nat) == r
  {
    var j := FindEmpty(r.answer);
    var r' := Place(r, k);
    var back := Remove(r', j as nat);
    assert r'.answer[j] == Filled(r.tiles[k], k);
    assert back.answer == r.answer;
    assert back.used == r.used;
  }

  /** Emptying a box with only filled boxes before it, then clicking the
      tile it named, rebuilds the same board. */
  lemma PlaceRedoesRemove(r: Round, i: nat)
    requires Consistent(r)
    requires i < |r.answer| && r.answer[i].Filled?
    requires forall x :: 0 <= x < i ==> r.answer[x].Filled?
    ensures Place(Remove(r, i), r.answer[i].origin) == r
  {
    var o := r.answer[i].origin;
    var r1 := Remove(r, i);
    assert o in Origins(r.answer);
    assert r.used[o];
    assert !r1.used[o];
    assert r1.answer[i].Empty?;
    assert forall x :: 0 <= x < i ==> r1.answer[x].Filled?;
    assert FindEmpty(r1.answer) == i;
    var r2 := Place(r1, o);
    assert r2.answer == r.answer;
    assert r2.used == r.used;
  }

  lemma {:induction false} FilledVacate(answer: seq<Slot>, i: nat)
    requires i < |answer| && answer[i].Filled?
    ensures multiset(FilledGraphemes(answer)) ==
            multiset(FilledGraphemes(answer[i := Empty])) + multiset{answer[i].grapheme}
    decreases i
  {
    var a' := answer[i := Empty];
    if i == 0 {
      assert a'[1..] == answer[1..];
    } else {
      assert a'[1..] == answer[1..][i - 1 := Empty];
      FilledVacate(answer[1..], i - 1);
    }
  }

  lemma {:induction false} UnusedFree(tiles: seq<string>, used: seq<bool>, o: nat)
    requires |used| == |tiles| && o < |used| && used[o]
    ensures multiset(UnusedGraphemes(tiles, used[o := false])) ==
            multiset(UnusedGraphemes(tiles, used)) + multiset{tiles[o]}
    decreases o
  {
    var u' := used[o := false];
    if o == 0 {
      assert u'[1..] == used[1..];
    } else {
      assert u'[1..] == used[1..][o - 1 := false];
      UnusedFree(tiles[1..], used[1..], o - 1);
    }
  }

  lemma {:induction false} UnusedWhenNoneUsed(tiles: seq<string>, used: seq<bool>)
    requires |used| == |tiles|
    requires forall k :: 0 <= k < |used| ==> !used[k]
    ensures UnusedGraphemes(tiles, used) == tiles
    decreases |tiles|
  {
    if |tiles| > 0 {
      UnusedWhenNoneUsed(tiles[1..], used[1..]);
    }
  }

  /** No tile is lost or duplicated: the graphemes in the boxes together with
      the graphemes of the unused tiles are exactly the scrambled tiles, each
      once. */
  lemma {:induction false} Conservation(r: Round)
    requires Consistent(r)
    ensures multiset(FilledGraphemes(r.answer)) + multiset(UnusedGraphemes(r.tiles, r.used)) == multiset(r.tiles)
    decreases FilledCount(r.answer)
  {
    if i :| 0 <= i < |r.answer| && r.answer[i].Filled? {
      var o := r.answer[i].origin;
      var r1 := Remove(r, i);
      RemoveKeepsConsistent(r, i);
      assert o in Origins(r.answer);
      FilledVacate(r.answer, i);
      UnusedFree(r.tiles, r.used, o);
      assert r1.used == r.used[o := false];
      assert |FilledGraphemes(r.answer)| == |FilledGraphemes(r1.answer)| + 1 by {
        assert |multiset(FilledGraphemes(r.answer))| == |multiset(FilledGraphemes(r1.answer))| + 1;
      }
      Conservation(r1);
    } else {
      ConservationEmpty(r);
    }
  }

  lemma ConservationEmpty(r: Round)
    requires Consistent(r)
    requires forall i :: 0 <= i < |r.answer| ==> r.answer[i].Empty?
    ensures multiset(FilledGraphemes(r.answer)) + multiset(UnusedGraphemes(r.tiles, r.used)) == multiset(r.tiles)
  {
    assert Origins(r.answer) == {};
    forall k | 0 <= k < |r.used| ensures !r.used[k] {
      assert k !in UsedTiles(r.used);
    }
    UnusedWhenNoneUsed(r.tiles, r.used);
    NoFilledNoGraphemes(r.answer);
  }

  lemma {:induction false} NoFilledNoGraphemes(answer: seq<Slot>)
    requires forall i :: 0 <= i < |answer| ==> answer[i].Empty?
    ensures FilledGraphemes(answer) == []
    decreases |answer|
  {
    if |answer| > 0 {
      NoFilledNoGraphemes(answer[1..]);
    }
  }

  /** The string an answer spells is the join of its filled boxes' graphemes:
      an empty box contributes nothing. */
  lemma {:induction false} ConstructedIsJoin(answer: seq<Slot>)
    ensures Constructed(answer) == Concat(FilledGraphemes(answer))
    decreases |answer|
  {
    if |answer| > 0 {
      ConstructedIsJoin(answer[1..]);
      var head := if answer[0].Filled? then [answer[0].grapheme] else [];
      ConcatAppend(head, FilledGraphemes(answer[1..]));
      if answer[0].Filled? {
        ConcatSingle(answer[0].grapheme);
      }
    }
  }

  lemma {:induction false} CompleteFillCount(answer: seq<Slot>)
    requires Complete(answer)
    ensures FilledCount(answer) == |answer|
    decreases |answer|
  {
    if |answer| > 0 {
      CompleteFillCount(answer[1..]);
    }
  }

  /** When every box is filled (the moment the answer is checked), the boxes
      hold exactly the scrambled tiles, so the checked string is the join of
      a rearrangement of the word's graphemes. */
  lemma CompleteUsesEveryTile(r: Round)
    requires Consistent(r) && Complete(r.answer) && |r.answer| == |r.tiles|
    ensures multiset(FilledGraphemes(r.answer)) == multiset(r.tiles)
    ensures Constructed(r.answer) == Concat(FilledGraphemes(r.answer))
  {
    Conservation(r);
    CompleteFillCount(r.answer);
    ConstructedIsJoin(r.answer);
    var unused := multiset(UnusedGraphemes(r.tiles, r.used));
    assert |multiset(r.tiles)| == |r.tiles|;
    assert |unused| == 0;
  }

  // ----- Every round can be solved -----

  /** The first `j` boxes spell the first `j` graphemes of `gs`, the rest are
      empty, and the tiles are a rearrangement of `gs`. */
  predicate SpelledUpTo(r: Round, gs: seq<string>, j: nat) {
    && Consistent(r)
    && |r.answer| == |r.tiles| == |gs| && j <= |gs|
    && multiset(r.tiles) == multiset(gs)
    && (forall i :: 0 <= i < j ==> r.answer[i].Filled? && r.answer[i].grapheme == gs[i])
    && (forall i :: j <= i < |r.answer| ==> r.answer[i].Empty?)
  }

  lemma {:induction false} FilledPrefix(answer: seq<Slot>, gs: seq<string>, j: nat)
    requires j <= |answer| && j <= |gs|
    requires forall i :: 0 <= i < j ==> answer[i].Filled? && answer[i].grapheme == gs[i]
    requires forall i :: j <= i < |answer| ==> answer[i].Empty?
    ensures FilledGraphemes(answer) == gs[..j]
    decreases |answer|
  {
    if |answer| > 0 {
      if j == 0 {
        NoFilledNoGraphemes(answer);
      } else {
        FilledPrefix(answer[1..], gs[1..], j - 1);
        assert gs[..j] == [gs[0]] + gs[1..][..j - 1];
      }
    }
  }

  lemma {:induction false} UnusedHas(tiles: seq<string>, used: seq<bool>, g: string) returns (k: nat)
    requires |used| == |tiles| && g in UnusedGraphemes(tiles, used)
    ensures k < |tiles| && !used[k] && tiles[k] == g
    decreases |tiles|
  {
    if !used[0] && tiles[0] == g {
      k := 0;
    } else {
      assert UnusedGraphemes(tiles, used) ==
        (if used[0] then [] else [tiles[0]]) + UnusedGraphemes(tiles[1..], used[1..]);
      var k' := UnusedHas(tiles[1..], used[1..], g);
      k := k' + 1;
    }
  }

  /** From a partly spelled board some unused tile carries the next grapheme,
      and clicking it spells one grapheme more; the board is complete exactly
      when the whole word is spelled. */
  lemma NextTile(r: Round, gs: seq<string>, j: nat) returns (k: nat)
    requires SpelledUpTo(r, gs, j) && j < |gs|
    ensures CanPlace(r, k)
    ensures SpelledUpTo(Place(r, k), gs, j + 1)
    ensures Complete(Place(r, k).answer) <==> j + 1 == |gs|
  {
    SpelledUnused(r, gs, j);
    assert gs[j] in multiset(gs[j..]);
    k := UnusedHas(r.tiles, r.used, gs[j]);
    PlaceNext(r, gs, j, k);
  }

  /** The tiles not yet used carry the graphemes still to be spelled. */
  lemma SpelledUnused(r: Round, gs: seq<string>, j: nat)
    requires SpelledUpTo(r, gs, j)
    ensures multiset(UnusedGraphemes(r.tiles, r.used)) == multiset(gs[j..])
  {
    Conservation(r);
    FilledPrefix(r.answer, gs, j);
    assert gs == gs[..j] + gs[j..];
    Cancel(multiset(gs[..j]), multiset(UnusedGraphemes(r.tiles, r.used)), multiset(gs[j..]));
  }

  lemma Cancel(a: multiset<string>, b: multiset<string>, c: multiset<string>)
    requires a + b == a + c
    ensures b == c
  {
    forall g ensures b[g] == c[g] {
      assert (a + b)[g] == (a + c)[g];
    }
  }

  lemma PlaceNext(r: Round, gs: seq<string>, j: nat, k: nat)
    requires SpelledUpTo(r, gs, j) && j < |gs|
    requires k < |r.tiles| && !r.used[k] && r.tiles[k] == gs[j]
    ensures CanPlace(r, k)
    ensures SpelledUpTo(Place(r, k), gs, j + 1)
    ensures Complete(Place(r, k).answer) <==> j + 1 == |gs|
  {
    assert !Complete(r.answer) by {
      assert r.answer[j].Empty?;
    }
    PlaceKeepsConsistent(r, k);
    var r' := Place(r, k);
    var j' :| 0 <= j' < |r.answer| && r.answer[j'].Empty?
              && (forall i :: 0 <= i < j' ==> r.answer[i].Filled?)
              && r'.answer == r.answer[j' := Filled(r.tiles[k], k)];
    assert j' == j by {
      assert r.answer[j].Empty?;
    }
    if j + 1 < |gs| {
      assert r'.answer[j + 1].Empty?;
    }
  }

  /** A fully spelled board is complete and spells the word. */
  lemma SpelledAll(r: Round, gs: seq<string>)
    requires SpelledUpTo(r, gs, |gs|)
    ensures Complete(r.answer)
    ensures Constructed(r.answer) == Concat(gs)
  {
    FilledPrefix(r.answer, gs, |gs|);
    ConstructedIsJoin(r.answer);
    assert gs[..|gs|] == gs;
  }
}

=== FILE: difficulty.dfy ===
/** The difficulty ramp: a score-indexed table of maximum word lengths
    (web/script.js, `difficultyLevels` and the scan in `checkAnswer`). */
module Difficulty {

  /** A maximum grapheme length; `Infinite` is the table's `Infinity`. */
  datatype Bound = Finite(n: nat) | Infinite {

    /** `length <= maxLength`, with every length below `Infinity`. */
    predicate Admits(len: nat) {
      match this
      case Finite(n) => len <= n
      case Infinite => true
    }

    /** The order of bounds: a bound admits no more lengths than a later one. */
    predicate AtMost(other: Bound) {
      match (this, other)
      case (_, Infinite) => true
      case (Infinite, Finite(_)) => false
      case (Finite(a), Finite(b)) => a <= b
    }
  }

  /** One tier: from `threshold` points on, words up to `maxLength` graphemes. */
  datatype Level = Level(threshold: nat, maxLength: Bound)

  /** The shipped table. */
  const Levels: seq<Level> := [
    Level(0, Finite(3)),
    Level(5, Finite(4)),
    Level(10, Finite(5)),
    Level(15, Finite(6)),
    Level(20, Infinite)
  ]

  /** The bound a new game starts with (`difficultyLevels[0].maxLength`). */
  const InitialBound: Bound := Levels[0].maxLength

  /** Thresholds strictly ascending along the table. */
  predicate Ascending(levels: seq<Level>) {
    forall i, j :: 0 <= i < j < |levels| ==> levels[i].threshold < levels[j].threshold
  }

  /** Maximum lengths never shrink along the table. */
  predicate Growing(levels: seq<Level>) {
    forall i, j :: 0 <= i < j < |levels| ==> levels[i].maxLength.AtMost(levels[j].maxLength)
  }

  /** `j` is the last level whose threshold the score has reached. */
  predicate LastReached(levels: seq<Level>, score: nat, j: nat) {
    && j < |levels|
    && levels[j].threshold <= score
    && (j + 1 == |levels| || score < levels[j + 1].threshold)
  }

  /** The `for (const level of difficultyLevels)` loop: take each level's
      bound while the score reaches its threshold, stop at the first one it
      does not; `current` is what the loop starts from. */
  function Scan(levels: seq<Level>, score: nat, current: Bound): Bound
  {
    if |levels| == 0 then current
    else if score >= levels[0].threshold then Scan(levels[1..], score, levels[0].maxLength)
    else current
  }

  /** The new maximum length after a correct answer brings the score to `score`. */
  function NextBound(current: Bound, score: nat): Bound
  {
    Scan(Levels, score, current)
  }

  /** On an ascending table the scan yields the bound of the last level whose
      threshold is at most the score, whatever bound the scan starts from. */
  lemma {:induction false} ScanFindsLastReached(levels: seq<Level>, score: nat, current: Bound, j: nat)
    requires Ascending(levels)
    requires LastReached(levels, score, j)
    ensures Scan(levels, score, current) == levels[j].maxLength
    decreases |levels|
  {
    if j == 0 {
      if |levels| > 1 {
        assert Scan(levels[1..], score, levels[0].maxLength) == levels[0].maxLength;
      }
    } else {
      assert levels[0].threshold < levels[j].threshold;
      assert Ascending(levels[1..]) by {
        forall a, b | 0 <= a < b < |levels[1..]|
          ensures levels[1..][a].threshold < levels[1..][b].threshold
        {
          assert levels[1..][a] == levels[a + 1] && levels[1..][b] == levels[b + 1];
        }
      }
      assert LastReached(levels[1..], score, j - 1);
      ScanFindsLastReached(levels[1..], score, levels[0].maxLength, j - 1);
    }
  }

  /** The shipped table is ascending in both columns. */
  lemma LevelsWellFormed()
    ensures Ascending(Levels) && Growing(Levels)
  {
  }

  /** The index of the last level reached by a score, in the shipped table. */
  function TierOf(score: nat): (j: nat)
    ensures LastReached(Levels, score, j)
  {
    if score < 5 then 0 else if score < 10 then 1 else if score < 15 then 2 else if score < 20 then 3 else 4
  }

  /** The recomputed bound is the last reached level's bound, whatever the
      bound before; concretely 0..4 -> 3, 5..9 -> 4, 10..14 -> 5, 15..19 -> 6,
      20 and more -> unbounded. */
  lemma NextBoundTable(current: Bound, score: nat)
    ensures NextBound(current, score) == Levels[TierOf(score)].maxLength
    ensures NextBound(current, score) ==
      if score < 5 then Finite(3)
      else if score < 10 then Finite(4)
      else if score < 15 then Finite(5)
      else if score < 20 then Finite(6)
      else Infinite
  {
    LevelsWellFormed();
    ScanFindsLastReached(Levels, score, current, TierOf(score));
  }

  /** A score of zero yields the starting bound, so a fresh game and the
      table agree. */
  lemma NextBoundAtZero(current: Bound)
    ensures NextBound(current, 0) == InitialBound
  {
    NextBoundTable(current, 0);
  }

  /** Difficulty never eases as the score grows. */
  lemma NextBoundMonotone(c1: Bound, c2: Bound, s1: nat, s2: nat)
    requires s1 <= s2
    ensures NextBound(c1, s1).AtMost(NextBound(c2, s2))
  {
    NextBoundTable(c1, s1);
    NextBoundTable(c2, s2);
    LevelsWellFormed();
    var a, b := TierOf(s1), TierOf(s2);
    if a < b {
      assert Levels[a].maxLength.AtMost(Levels[b].maxLength);
    }
  }
}

=== FILE: highscores.dfy ===
/** The local leaderboard (web/script.js, `saveHighscore`). The JSON text in
    `localStorage` is modelled by the list it encodes. */
module Highscores {

  /** `{ username, score }`. */
  datatype Entry = Entry(name: string, score: nat)

  /** `slice(0, 10)`. */
  const Capacity: nat := 10

  /** Ordered by score, highest first. */
  predicate Descending(s: seq<Entry>) {
    forall i, j :: 0 <= i < j < |s| ==> s[i].score >= s[j].score
  }

  /** What the store always holds after a save. */
  predicate Ranked(s: seq<Entry>) {
    Descending(s) && |s| <= Capacity
  }

  /** Every entry of `s` scores at most `n`. */
  predicate AllAtMost(s: seq<Entry>, n: nat) {
    forall i :: 0 <= i < |s| ==> s[i].score <= n
  }

  /** Inserting `e` into a descending list after every entry scoring at least
      as much: the place a stable sort gives an element appended last. */
  function Insert(s: seq<Entry>, e: Entry): (r: seq<Entry>)
    requires Descending(s)
    ensures |r| == |s| + 1
    ensures forall n: nat :: AllAtMost(s, n) && e.score <= n ==> AllAtMost(r, n)
    ensures Descending(r)
    ensures multiset(r) == multiset(s) + multiset{e}
  {
    if |s| == 0 then [e]
    else if s[0].score >= e.score then
      var rest := Insert(s[1..], e);
      assert AllAtMost(s[1..], s[0].score);
      assert AllAtMost(rest, s[0].score);
      assert s == [s[0]] + s[1..];
      [s[0]] + rest
    else [e] + s
  }

  /** `highscores.sort((a, b) => b.score - a.score)`: a stable sort by
      descending score (stable as the language guarantees for `Array.prototype.sort`). */
  function SortDescending(s: seq<Entry>): (r: seq<Entry>)
    ensures Descending(r)
    ensures multiset(r) == multiset(s)
    ensures |r| == |s|
  {
    if |s| == 0 then []
    else
      assert s == s[..|s| - 1] + [s[|s| - 1]];
      Insert(SortDescending(s[..|s| - 1]), s[|s| - 1])
  }

  function Min(a: nat, b: nat): nat {
    if a <= b then a else b
  }

  /** Every entry of `s` scores at least `n`. */
  predicate AllAtLeast(s: seq<Entry>, n: nat) {
    forall i :: 0 <= i < |s| ==> s[i].score >= n
  }

  /** A prefix of a descending list holds its best entries: whatever lies
      beyond the cut scores no more than anything before it. */
  lemma PrefixIsBest(sorted: seq<Entry>, n: nat)
    requires Descending(sorted) && n <= |sorted|
    ensures multiset(sorted[..n]) <= multiset(sorted)
    ensures forall x :: x in multiset(sorted) - multiset(sorted[..n]) ==> AllAtLeast(sorted[..n], x.score)
  {
    assert sorted == sorted[..n] + sorted[n..];
    assert multiset(sorted) - multiset(sorted[..n]) == multiset(sorted[n..]);
    forall x | x in multiset(sorted) - multiset(sorted[..n]) ensures AllAtLeast(sorted[..n], x.score) {
      assert x in sorted[n..];
      var j :| 0 <= j < |sorted[n..]| && sorted[n..][j] == x;
      assert sorted[n + j] == x;
    }
  }

  /** `saveHighscore(username, score)`: push the entry, sort, keep the first
      ten. The result is ranked and as long as the capacity allows. */
  function Save(list: seq<Entry>, e: Entry): (r: seq<Entry>)
    ensures Ranked(r)
    ensures |r| == Min(|list| + 1, Capacity)
  {
    var sorted := SortDescending(list + [e]);
    sorted[..Min(|sorted|, Capacity)]
  }

  /** The saved list is the best of the old list plus the new entry: it is
      drawn from them, and no entry left out (counting repeated entries one
      by one) scores more than any entry kept. */
  lemma SaveKeepsBest(list: seq<Entry>, e: Entry)
    ensures multiset(Save(list, e)) <= multiset(list + [e])
    ensures forall x :: x in multiset(list + [e]) - multiset(Save(list, e)) ==> AllAtLeast(Save(list, e), x.score)
  {
    var sorted := SortDescending(list + [e]);
    var n := Min(|sorted|, Capacity);
    PrefixIsBest(sorted, n);
  }

  /** A descending list is already sorted: sorting it changes nothing (the
      sort is stable). */
  lemma {:induction false} SortKeepsDescending(s: seq<Entry>)
    requires Descending(s)
    ensures SortDescending(s) == s
    decreases |s|
  {
    if |s| > 0 {
      var init := s[..|s| - 1];
      SortKeepsDescending(init);
      InsertLast(init, s[|s| - 1]);
      assert init + [s[|s| - 1]] == s;
    }
  }

  /** An entry scoring no more than every entry of a descending list goes to its end. */
  lemma {:induction false} InsertLast(s: seq<Entry>, e: Entry)
    requires Descending(s)
    requires forall i :: 0 <= i < |s| ==> s[i].score >= e.score
    ensures Insert(s, e) == s + [e]
    decreases |s|
  {
    if |s| > 0 {
      InsertLast(s[1..], e);
      assert [s[0]] + (s[1..] + [e]) == s + [e];
    }
  }

  /** On a ranked store the save is the stable insertion of the new entry,
      cut to ten. */
  lemma SaveInserts(list: seq<Entry>, e: Entry)
    requires Descending(list)
    ensures Save(list, e) == Insert(list, e)[..Min(|list| + 1, Capacity)]
  {
    SortKeepsDescending(list);
    assert (list + [e])[..|list|] == list;
  }

  lemma SaveInsertsValue(list: seq<Entry>, e: Entry, r: seq<Entry>)
    requires Descending(list) && |list| < Capacity && Insert(list, e) == r
    ensures Save(list, e) == r
  {
    SaveInserts(list, e);
  }

  lemma SaveSecondOfExample()
    ensures Save([Entry("A", 10)], Entry("B", 30)) == [Entry("B", 30), Entry("A", 10)]
  {
    var a, b := Entry("A", 10), Entry("B", 30);
    assert Insert([a], b) == [b, a];
    SaveInsertsValue([a], b, [b, a]);
  }

  lemma SaveThirdOfExample()
    ensures Save([Entry("B", 30), Entry("A", 10)], Entry("C", 20)) ==
            [Entry("B", 30), Entry("C", 20), Entry("A", 10)]
  {
    var a, b, c := Entry("A", 10), Entry("B", 30), Entry("C", 20);
    assert [b, a][1..] == [a];
    assert Insert([b, a], c) == [b, c, a];
    SaveInsertsValue([b, a], c, [b, c, a]);
  }

  /** Scores 10, 30, 20 saved for A, B, C are stored as B:30, C:20, A:10. */
  lemma SaveExample()
    ensures Save(Save(Save([], Entry("A", 10)), Entry("B", 30)), Entry("C", 20)) ==
            [Entry("B", 30), Entry("C", 20), Entry("A", 10)]
  {
    SaveInsertsValue([], Entry("A", 10), [Entry("A", 10)]);
    SaveSecondOfExample();
    SaveThirdOfExample();
  }

  /** Saving into a full store an entry that scores no more than the lowest
      stored one leaves the store as it was: the new entry is the one dropped. */
  lemma SaveLowIntoFull(list: seq<Entry>, e: Entry)
    requires Ranked(list) && |list| == Capacity
    requires e.score <= list[Capacity - 1].score
    ensures Save(list, e) == list
  {
    SaveInserts(list, e);
    InsertLast(list, e);
    assert (list + [e])[..Capacity] == list;
  }
}

=== FILE: scenario.dfy ===
/** A whole game on a list of two three-grapheme words, such as "cat" and
    "dog", for any random draws: load, start, win both rounds, and the game
    ends on its own reporting a score of two. */
module Scenario {
  import opened Text
  import opened Random
  import opened Difficulty
  import opened WordPool
  import opened Scramble
  import opened Answer
  import opened Highscores
  import opened Session

  /** Two words of three graphemes each: both fit the first tier. */
  predicate Pair(pool: seq<Word>) {
    |pool| == 2 && |pool[0]| == 3 && |pool[1]| == 3
  }

  const CatDog: seq<Word> := [["c", "a", "t"], ["d", "o", "g"]]

  lemma CatDogPair()
    ensures Pair(CatDog)
    ensures Concat(CatDog[0]) == "cat" && Concat(CatDog[1]) == "dog"
  {
  }

  lemma PairLongest(pool: seq<Word>)
    requires Pair(pool)
    ensures Longest(pool) == 3
  {
    assert pool[1..][0] == pool[1];
    assert Longest(pool[1..][1..]) == 0;
  }

  lemma PairExhausted(pool: seq<Word>, used: set<nat>)
    requires |pool| == 2 && used == {0, 1}
    ensures Exhausted(pool, used)
  {
  }

  /** A draw for the word choice and draws for the shuffles of a
      three-grapheme word. */
  predicate Draws(u: real, rounds: seq<seq<real>>) {
    IsDraw(u) && DrawsFor(3, rounds)
  }

  /** The scheduled `setupWord` firing (the `SetupDue` event). */
  function Next(s: Session, u: real, rounds: seq<seq<real>>): Session
    requires Pair(s.words) && Draws(u, rounds)
  {
    PairLongest(s.words);
    Step(s, SetupDue(u, rounds))
  }

  /** The page boots, the list arrives, Start is pressed. */
  function Started(pool: seq<Word>, player: Player, stored: seq<Entry>): (s: Session)
    requires Pair(pool)
    ensures s.words == pool
  {
    Step(Step(Boot(player, stored), WordsArrived(Fetched(pool))), StartPressed)
  }

  /** ... and the first word is set up. */
  function Opening(pool: seq<Word>, player: Player, stored: seq<Entry>, u: real, rounds: seq<seq<real>>): (s: Session)
    requires Pair(pool) && Draws(u, rounds)
    ensures s.words == pool
  {
    Next(Started(pool, player, stored), u, rounds)
  }

  lemma NextIsSetup(s: Session, u: real, rounds: seq<seq<real>>)
    requires Pair(s.words) && Draws(u, rounds) && s.pending > 0
    ensures Longest(s.words) == 3
    ensures Next(s, u, rounds) == SetupWord(s.(pending := s.pending - 1), u, rounds)
  {
    PairLongest(s.words);
    assert Feasible(s, SetupDue(u, rounds));
    assert Step(s, SetupDue(u, rounds)) == RunSetup(s, u, rounds);
  }

  /** Booting and loading the list shows the start screen; Start then
      schedules the first `setupWord`. */
  lemma StartPlays(pool: seq<Word>, player: Player, stored: seq<Entry>)
    requires Pair(pool)
    ensures var s := Started(pool, player, stored);
      && Valid(s) && s.screen == Playing && !s.ticking
      && s.used == {} && s.score == 0 && s.pending == 1
      && s.sent == [] && s.highscores == stored && s.username == DisplayName(player.username, player.firstName)
  {
    var s0 := Boot(player, stored);
    var s1 := Step(s0, WordsArrived(Fetched(pool)));
    assert InitialBound.Admits(|pool[0]|);
    assert s1.screen == Start;
    StepKeepsValid(s0, WordsArrived(Fetched(pool)));
    StepKeepsValid(s1, StartPressed);
  }

  /** With a word left unused, `setupWord` starts a round. */
  lemma SetupTicks(t: Session, u: real, rounds: seq<seq<real>>, free: nat)
    requires Valid(t)
    requires IsDraw(u) && DrawsFor(Longest(t.words), rounds)
    requires free < |t.words| && free !in t.used
    ensures SetupWord(t, u, rounds).ticking
  {
    SetupEndsOnlyWhenExhausted(t, u, rounds);
  }

  lemma OpeningPlays(pool: seq<Word>, player: Player, stored: seq<Entry>, u: real, rounds: seq<seq<real>>)
    requires Pair(pool) && Draws(u, rounds)
    ensures var s := Opening(pool, player, stored, u, rounds);
      && Valid(s) && s.screen == Playing && s.ticking
      && (s.wordIndex == 0 || s.wordIndex == 1) && s.used == {s.wordIndex}
      && s.round == Fresh(s.round.tiles)
      && s.score == 0 && s.pending == 0
      && s.sent == [] && s.highscores == stored && s.username == DisplayName(player.username, player.firstName)
  {
    var s2 := Started(pool, player, stored);
    StartPlays(pool, player, stored);
    NextIsSetup(s2, u, rounds);
    SetupFirst(s2.(pending := 0), u, rounds);
  }

  /** With no word used, `setupWord` sets up one of the two words. */
  lemma SetupFirst(t: Session, u: real, rounds: seq<seq<real>>)
    requires Valid(t) && |t.words| == 2 && t.screen == Playing && t.used == {}
    requires IsDraw(u) && DrawsFor(Longest(t.words), rounds)
    ensures var r := SetupWord(t, u, rounds);
      && Valid(r) && r.screen == Playing && r.ticking
      && (r.wordIndex == 0 || r.wordIndex == 1) && r.used == {r.wordIndex}
      && r.round == Fresh(r.round.tiles)
      && r.score == t.score && r.pending == t.pending
      && r.sent == t.sent && r.highscores == t.highscores && r.username == t.username
  {
    SetupTicks(t, u, rounds, 0);
    SetupWordKeepsValid(t, u, rounds);
    var r := SetupWord(t, u, rounds);
    assert r == Begin(StopTimer(t), r.wordIndex, rounds);
  }

  /** On a two-word list with one word used, `setupWord` sets up the other. */
  lemma SetupOther(t: Session, u: real, rounds: seq<seq<real>>)
    requires Valid(t) && |t.words| == 2
    requires IsDraw(u) && DrawsFor(Longest(t.words), rounds)
    requires (t.wordIndex == 0 || t.wordIndex == 1) && t.used == {t.wordIndex}
    ensures var r := SetupWord(t, u, rounds);
      && r.ticking && r.wordIndex == 1 - t.wordIndex && r.used == {0, 1}
      && r == Begin(StopTimer(t), r.wordIndex, rounds)
  {
    SetupTicks(t, u, rounds, 1 - t.wordIndex);
    OtherIndex(t, SetupWord(t, u, rounds).wordIndex);
  }

  lemma OtherIndex(t: Session, i: int)
    requires (t.wordIndex == 0 || t.wordIndex == 1) && t.used == {t.wordIndex}
    requires 0 <= i < 2 && i !in t.used
    ensures i == 1 - t.wordIndex && t.used + {i} == {0, 1}
  {
  }

  /** After a round is won, the next `setupWord` sets up the other word. */
  lemma SecondWordPlays(s: Session, u: real, rounds: seq<seq<real>>)
    requires Valid(s) && Pair(s.words) && s.screen == Playing && Draws(u, rounds)
    requires (s.wordIndex == 0 || s.wordIndex == 1) && s.used == {s.wordIndex} && s.pending == 1
    ensures var r := Next(s, u, rounds);
      && Valid(r) && r.screen == Playing && r.ticking
      && r.wordIndex == 1 - s.wordIndex && r.used == {0, 1}
      && r.round == Fresh(r.round.tiles)
      && r.score == s.score && r.pending == 0
      && r.words == s.words && r.sent == s.sent && r.highscores == s.highscores && r.username == s.username
  {
    NextIsSetup(s, u, rounds);
    var t := s.(pending := 0);
    SetupOther(t, u, rounds);
    SetupWordKeepsValid(t, u, rounds);
  }

  /** With both words used, the next `setupWord` ends the game with the
      completion message and reports the score. */
  lemma LastSetupCompletes(s: Session, u: real, rounds: seq<seq<real>>)
    requires Valid(s) && Pair(s.words) && Draws(u, rounds)
    requires s.used == {0, 1} && s.pending == 1
    ensures var r := Next(s, u, rounds);
      && r.screen == GameOver && r.ending == Completed && r.score == s.score
      && r.sent == s.sent + [s.score]
      && r.highscores == Save(s.highscores, Entry(s.username, s.score))
  {
    NextIsSetup(s, u, rounds);
    var t := s.(pending := 0);
    PairExhausted(t.words, t.used);
    SetupEndsOnlyWhenExhausted(t, u, rounds);
  }

  /** The first round: one of the two words comes up and is won. */
  lemma FirstRound(pool: seq<Word>, player: Player, stored: seq<Entry>, u: real, rounds: seq<seq<real>>)
    returns (ks: seq<nat>)
    requires Pair(pool) && Draws(u, rounds)
    ensures var s := Clicks(Opening(pool, player, stored, u, rounds), ks);
      && Valid(s) && s.words == pool && s.screen == Playing
      && (s.wordIndex == 0 || s.wordIndex == 1) && s.used == {s.wordIndex}
      && Opening(pool, player, stored, u, rounds).word == s.word == Concat(pool[s.wordIndex])
      && s.score == 1 && s.pending == 1
      && s.sent == [] && s.highscores == stored && s.username == DisplayName(player.username, player.firstName)
  {
    var s3 := Opening(pool, player, stored, u, rounds);
    OpeningPlays(pool, player, stored, u, rounds);
    ks := RoundIsWinnable(s3);
  }

  /** The second round: the other word comes up and is won, leaving both
      words used. */
  lemma SecondRound(s: Session, u: real, rounds: seq<seq<real>>) returns (ks: seq<nat>)
    requires Valid(s) && Pair(s.words) && s.screen == Playing && Draws(u, rounds)
    requires (s.wordIndex == 0 || s.wordIndex == 1) && s.used == {s.wordIndex} && s.pending == 1
    ensures Next(s, u, rounds).word == Concat(s.words[1 - s.wordIndex])
    ensures Next(s, u, rounds).words == s.words
    ensures var e := Clicks(Next(s, u, rounds), ks);
      && Valid(e) && e.words == s.words && e.screen == Playing
      && e.used == {0, 1} && e.score == s.score + 1 && e.pending == 1
      && e.sent == s.sent && e.highscores == s.highscores && e.username == s.username
  {
    SecondWordPlays(s, u, rounds);
    ks := RoundIsWinnable(Next(s, u, rounds));
  }

  /** Whatever the draws, one word comes up first, the other second, both can
      be won, and winning both ends the game with the completion message, a
      score of two saved under the player's name and sent to the host. */
  lemma TwoWordGame(pool: seq<Word>, player: Player, stored: seq<Entry>,
                    u1: real, r1: seq<seq<real>>, u2: real, r2: seq<seq<real>>, u3: real, r3: seq<seq<real>>)
    returns (ks1: seq<nat>, ks2: seq<nat>)
    requires Pair(pool) && Draws(u1, r1) && Draws(u2, r2) && Draws(u3, r3)
    ensures exists i :: 0 <= i < 2 && Opening(pool, player, stored, u1, r1).word == Concat(pool[i])
    ensures Pair(Clicks(Opening(pool, player, stored, u1, r1), ks1).words)
    ensures var second := Next(Clicks(Opening(pool, player, stored, u1, r1), ks1), u2, r2);
      && (exists i :: 0 <= i < 2 && Opening(pool, player, stored, u1, r1).word == Concat(pool[i])
                                 && second.word == Concat(pool[1 - i]))
      && Pair(Clicks(second, ks2).words)
    ensures var end := Next(Clicks(Next(Clicks(Opening(pool, player, stored, u1, r1), ks1), u2, r2), ks2), u3, r3);
      && end.screen == GameOver && end.ending == Completed
      && end.score == 2 && end.sent == [2]
      && end.highscores == Save(stored, Entry(DisplayName(player.username, player.firstName), 2))
  {
    ks1 := FirstRound(pool, player, stored, u1, r1);
    var s4 := Clicks(Opening(pool, player, stored, u1, r1), ks1);
    ks2 := SecondRound(s4, u2, r2);
    LastSetupCompletes(Clicks(Next(s4, u2, r2), ks2), u3, r3);
  }

  /** On the list "cat", "dog": the first word is one of them, the second is
      the other, and winning both reports a score of two. */
  lemma CatAndDog(player: Player, stored: seq<Entry>,
                  u1: real, r1: seq<seq<real>>, u2: real, r2: seq<seq<real>>, u3: real, r3: seq<seq<real>>)
    returns (ks1: seq<nat>, ks2: seq<nat>)
    requires Draws(u1, r1) && Draws(u2, r2) && Draws(u3, r3)
    ensures Pair(CatDog)
    ensures Opening(CatDog, player, stored, u1, r1).word in {"cat", "dog"}
    ensures Pair(Clicks(Opening(CatDog, player, stored, u1, r1), ks1).words)
    ensures var second := Next(Clicks(Opening(CatDog, player, stored, u1, r1), ks1), u2, r2);
      && second.word in {"cat", "dog"} && second.word != Opening(CatDog, player, stored, u1, r1).word
      && Pair(Clicks(second, ks2).words)
    ensures var end := Next(Clicks(Next(Clicks(Opening(CatDog, player, stored, u1, r1), ks1), u2, r2), ks2), u3, r3);
      && end.screen == GameOver && end.ending == Completed
      && end.score == 2 && end.sent == [2]
  {
    CatDogPair();
    ks1, ks2 := TwoWordGame(CatDog, player, stored, u1, r1, u2, r2, u3, r3);
  }
}

=== FILE: scramble.dfy ===
/** Scrambling a word (web/script.js, `shuffleArray` and the retry loop of
    `setupWord`). */
module Scramble {
  import opened Text
  import opened Random

  /** `maxShuffleAttempts`. */
  const MaxShuffleAttempts: nat := 100

  /** `[a[i], a[j]] = [a[j], a[i]]`. */
  function Swap<T>(a: seq<T>, i: nat, j: nat): (r: seq<T>)
    requires i < |a| && j < |a|
    ensures |r| == |a| && multiset(r) == multiset(a)
    ensures r[i] == a[j] && r[j] == a[i]
    ensures forall k :: 0 <= k < |a| && k != i && k != j ==> r[k] == a[k]
  {
    a[i := a[j]][j := a[i]]
  }

  /** The Fisher-Yates loop of `shuffleArray` from `currentIndex == n` down to
      zero: each step draws `randomIndex = floor(u * currentIndex)`,
      decrements `currentIndex` and swaps the two positions. `draws` are the
      successive `Math.random()` values. */
  function ShuffleFrom<T>(a: seq<T>, n: nat, draws: seq<real>): (r: seq<T>)
    requires n <= |a| && n <= |draws| && AllDraws(draws)
    ensures |r| == |a| && multiset(r) == multiset(a)
    ensures r[n..] == a[n..]
    decreases n
  {
    if n == 0 then a
    else
      var j := Scale(draws[0], n);
      ShuffleFrom(Swap(a, n - 1, j), n - 1, draws[1..])
  }

  /** `shuffleArray(array)`: one full Fisher-Yates pass, using the first `|a|` draws. */
  function Shuffle<T>(a: seq<T>, draws: seq<real>): (r: seq<T>)
    requires |draws| >= |a| && AllDraws(draws)
    ensures |r| == |a| && multiset(r) == multiset(a)
  {
    ShuffleFrom(a, |a|, draws)
  }

  /** Draws for the first shuffle and every retry, each enough for a word of
      up to `n` graphemes. */
  predicate DrawsFor(n: nat, rounds: seq<seq<real>>) {
    && |rounds| == MaxShuffleAttempts + 1
    && forall t :: 0 <= t < |rounds| ==> |rounds[t]| >= n && AllDraws(rounds[t])
  }

  /** The scrambled tiles and how many retries were spent. */
  datatype Scrambled = Scrambled(tiles: seq<string>, attempts: nat)

  /** The retry loop: `while (tiles.join('') === word && word.length > 1 &&
      attempts < maxShuffleAttempts) { reshuffle; attempts++ }`. The length
      test is on the word's code units, not its graphemes. */
  function Retry(gs: Word, rounds: seq<seq<real>>, attempts: nat, tiles: seq<string>): (r: Scrambled)
    requires DrawsFor(|gs|, rounds) && attempts <= MaxShuffleAttempts
    requires multiset(tiles) == multiset(gs) && |tiles| == |gs|
    ensures attempts <= r.attempts <= MaxShuffleAttempts
    ensures multiset(r.tiles) == multiset(gs) && |r.tiles| == |gs|
    ensures r.attempts < MaxShuffleAttempts && |Concat(gs)| > 1 ==> Concat(r.tiles) != Concat(gs)
    decreases MaxShuffleAttempts - attempts
  {
    if Concat(tiles) == Concat(gs) && |Concat(gs)| > 1 && attempts < MaxShuffleAttempts then
      Retry(gs, rounds, attempts + 1, Shuffle(gs, rounds[attempts + 1]))
    else
      Scrambled(tiles, attempts)
  }

  /** `scrambledGraphemes = shuffleArray([...wordGraphemes])` followed by the
      retry loop; `rounds[0]` feeds the first shuffle, `rounds[t]` the t-th retry. */
  function ScrambleWord(gs: Word, rounds: seq<seq<real>>): (r: Scrambled)
    requires DrawsFor(|gs|, rounds)
    ensures r.attempts <= MaxShuffleAttempts
    ensures multiset(r.tiles) == multiset(gs) && |r.tiles| == |gs|
    ensures r.attempts < MaxShuffleAttempts && |Concat(gs)| > 1 ==> Concat(r.tiles) != Concat(gs)
  {
    Retry(gs, rounds, 0, Shuffle(gs, rounds[0]))
  }

  /** A sequence with a single element has no other arrangement. */
  lemma SingletonPermutation(a: seq<string>, b: seq<string>)
    requires |a| == 1 && multiset(a) == multiset(b)
    ensures b == a
  {
    assert a[0] in multiset(b);
  }

  lemma {:induction false} RetrySingleGrapheme(gs: Word, rounds: seq<seq<real>>, attempts: nat, tiles: seq<string>)
    requires |gs| == 1 && |gs[0]| > 1
    requires DrawsFor(|gs|, rounds) && attempts <= MaxShuffleAttempts
    requires multiset(tiles) == multiset(gs) && |tiles| == |gs|
    ensures Retry(gs, rounds, attempts, tiles).attempts == MaxShuffleAttempts
    decreases MaxShuffleAttempts - attempts
  {
    SingletonPermutation(gs, tiles);
    ConcatSingle(gs[0]);
    if attempts < MaxShuffleAttempts {
      RetrySingleGrapheme(gs, rounds, attempts + 1, Shuffle(gs, rounds[attempts + 1]));
    }
  }

  /** A word of one grapheme built from several code units passes the
      `word.length > 1` guard yet can never be rearranged, so the retry loop
      always runs out all its attempts (and the tile is the word itself). */
  lemma SingleGraphemeExhaustsRetries(gs: Word, rounds: seq<seq<real>>)
    requires |gs| == 1 && |gs[0]| > 1
    requires DrawsFor(|gs|, rounds)
    ensures ScrambleWord(gs, rounds).attempts == MaxShuffleAttempts
    ensures ScrambleWord(gs, rounds).tiles == gs
  {
    RetrySingleGrapheme(gs, rounds, 0, Shuffle(gs, rounds[0]));
    SingletonPermutation(gs, ScrambleWord(gs, rounds).tiles);
  }

  /** A word of at most one code unit skips the retry loop entirely. */
  lemma ShortWordNoRetry(gs: Word, rounds: seq<seq<real>>)
    requires |Concat(gs)| <= 1
    requires DrawsFor(|gs|, rounds)
    ensures ScrambleWord(gs, rounds).attempts == 0
    ensures ScrambleWord(gs, rounds).tiles == Shuffle(gs, rounds[0])
  {
  }
}

=== FILE: session.dfy ===
/** The game session (web/script.js): the module-level state of the page as
    one immutable record, and every handler as a transition on it. Timer
    ticks and the firing of a scheduled `setupWord` are events like clicks. */
module Session {
  import opened Text
  import opened Random
  import opened Difficulty
  import opened WordPool
  import opened Scramble
  import opened Answer
  import opened Highscores

  /** The screen on display. */
  datatype Screen = Loading | Start | Playing | GameOver

  /** The message of the game-over screen: the missed word after a timeout,
      the completion message, or the safeguard's error message. */
  datatype Ending = NoEnding | TimedOut(word: string) | Completed | Failed

  /** The outcome of fetching and parsing the word list: `Unusable` for a
      network failure, a non-success status or a payload that is not an
      array of strings. */
  datatype Fetch = Unusable | Fetched(list: seq<Word>)

  /** `timeLimit`, in seconds. */
  const TimeLimit: int := 20

  /** The display name used when the host supplies none. */
  const FallbackName: string :=
    "\U{0794}\U{07AB}\U{0790}\U{07A7}\U{078E}\U{07AC}\U{0782}\U{07A6}\U{0782}\U{07B0}"

  datatype Session = Session(
    screen: Screen,
    fetched: bool,           // the word-list load has finished
    words: seq<Word>,
    used: set<nat>,          // usedWordIndices
    bound: Bound,            // currentMaxLength
    score: nat,
    timeLeft: int,
    ticking: bool,           // timerInterval !== null
    wordIndex: int,          // currentWordIndex, -1 for none
    word: string,            // currentWord
    round: Round,
    pending: nat,            // setupWord calls scheduled with setTimeout, not yet run
    username: string,
    highscores: seq<Entry>,  // the list stored under 'highscores'
    sent: seq<nat>,          // scores sent to the host, in order
    ending: Ending           // what the game-over screen says
  )

  /** `user.username || user.first_name || fallback`: the first non-empty one. */
  function DisplayName(username: string, firstName: string): (name: string)
    ensures |name| > 0
    ensures username != "" ==> name == username
    ensures username == "" && firstName != "" ==> name == firstName
    ensures username == "" && firstName == "" ==> name == FallbackName
  {
    if username != "" then username else if firstName != "" then firstName else FallbackName
  }

  /** The Telegram user the page was opened by; a page opened outside
      Telegram, or without user data, has both fields empty. */
  datatype Player = Player(username: string, firstName: string)

  /** The page as it boots: the loading screen, nothing loaded, a fresh game
      state, the player's display name, and the leaderboard found in storage. */
  function Boot(player: Player, stored: seq<Entry>): (s: Session)
    ensures s.screen == Loading && !s.fetched && !s.ticking
    ensures s.username == DisplayName(player.username, player.firstName) && |s.username| > 0
    ensures s.highscores == stored && s.sent == [] && s.score == 0
    ensures Valid(s)
  {
    NextBoundAtZero(InitialBound);
    var name := DisplayName(player.username, player.firstName);
    Session(Loading, false, [], {}, InitialBound, 0, TimeLimit, false, -1, "", Blank, 0, name, stored, [], NoEnding)
  }

  // ----- Screen and timer primitives -----

  function StopTimer(s: Session): Session {
    s.(ticking := false)
  }

  /** `startTimer`: restart the countdown from the full time limit. */
  function StartTimer(s: Session): (r: Session)
    ensures r.ticking && r.timeLeft == TimeLimit
  {
    s.(ticking := true, timeLeft := TimeLimit)
  }

  /** `showStartScreen`: stop the timer and show the start screen. */
  function ShowStart(s: Session): (r: Session)
    ensures r.screen == Start && !r.ticking
    ensures r.score == s.score && r.words == s.words && r.used == s.used && r.round == s.round
    ensures r.pending == s.pending && r.sent == s.sent && r.highscores == s.highscores && r.fetched == s.fetched
  {
    StopTimer(s).(screen := Start)
  }

  /** `showGameScreen`: stop the timer and show the game screen. */
  function ShowGame(s: Session): Session {
    StopTimer(s).(screen := Playing)
  }

  /** `showGameOverScreen(score, message)`: stop the timer, show the final
      screen, save `(username, score)` to the leaderboard and send the score
      to the host. */
  function ShowGameOver(s: Session, ending: Ending): (r: Session)
    ensures r.screen == GameOver && !r.ticking && r.ending == ending
    ensures r.score == s.score && r.round == s.round && r.used == s.used && r.words == s.words
    ensures r.highscores == Save(s.highscores, Entry(s.username, s.score)) && Ranked(r.highscores)
    ensures r.sent == s.sent + [s.score]
  {
    StopTimer(s).(
      screen := GameOver,
      ending := ending,
      highscores := Save(s.highscores, Entry(s.username, s.score)),
      sent := s.sent + [s.score])
  }

  // ----- Loading -----

  /** The continuation of `loadWords(...)`: an unusable or empty list leaves
      the loading screen up with its error; a list with no word short enough
      for the first tier does too (though the words are kept); otherwise the
      start screen appears. */
  function Load(s: Session, result: Fetch): (r: Session)
    requires s.screen == Loading
    ensures r.fetched
    ensures r.screen == Start <==>
      result.Fetched? && |result.list| > 0 && exists i :: 0 <= i < |result.list| && InitialBound.Admits(|result.list[i]|)
    ensures r.screen != Start ==> r.screen == Loading
    ensures result.Fetched? && |result.list| > 0 ==> r.words == result.list
    ensures !(result.Fetched? && |result.list| > 0) ==> r.words == s.words
  {
    match result
    case Unusable => s.(fetched := true)
    case Fetched(list) =>
      if |list| == 0 then s.(fetched := true)
      else
        var t := s.(fetched := true, words := list);
        if exists i :: 0 <= i < |list| && InitialBound.Admits(|list[i]|) then ShowStart(t) else t
  }

  // ----- Game flow -----

  /** `resetGameState`. */
  function Reset(s: Session): Session {
    s.(score := 0, used := {}, wordIndex := -1, bound := InitialBound, word := "", round := Blank)
  }

  /** `startGame`: reset, show the game screen and schedule the first
      `setupWord`; with no words loaded, fall back to the start screen. */
  function StartGame(s: Session): (r: Session)
    ensures r.score == 0 && r.used == {} && r.bound == InitialBound && !r.ticking
    ensures |s.words| > 0 ==> r.screen == Playing && r.pending == s.pending + 1
    ensures |s.words| == 0 ==> r.screen == Start && r.pending == s.pending
  {
    var g := ShowGame(Reset(s));
    if |g.words| > 0 then g.(pending := g.pending + 1) else ShowStart(g)
  }

  /** The length of the longest word of the list. */
  function Longest(words: seq<Word>): (n: nat)
    ensures forall i :: 0 <= i < |words| ==> |words[i]| <= n
  {
    if |words| == 0 then 0
    else
      var rest := Longest(words[1..]);
      assert forall i :: 1 <= i < |words| ==> words[i] == words[1..][i - 1];
      if |words[0]| > rest then |words[0]| else rest
  }

  /** The second half of `setupWord` for a chosen word `i`: mark it used,
      make it current, lay out its scrambled tiles and empty boxes, restart
      the timer. */
  function Begin(s: Session, i: nat, rounds: seq<seq<real>>): (r: Session)
    requires i < |s.words| && DrawsFor(|s.words[i]|, rounds)
    ensures r.ticking && r.timeLeft == TimeLimit
    ensures r.wordIndex == i && r.used == s.used + {i}
    ensures r.word == Concat(s.words[i])
    ensures r.round.tiles == ScrambleWord(s.words[i], rounds).tiles
    ensures multiset(r.round.tiles) == multiset(s.words[i]) && r.round == Fresh(r.round.tiles)
    ensures ScrambleWord(s.words[i], rounds).attempts < MaxShuffleAttempts && |r.word| > 1 ==>
      Concat(r.round.tiles) != r.word
    ensures r.screen == s.screen && r.score == s.score && r.bound == s.bound && r.pending == s.pending
    ensures r.sent == s.sent && r.highscores == s.highscores && r.words == s.words
  {
    var gs := s.words[i];
    var tiles := ScrambleWord(gs, rounds).tiles;
    StartTimer(s.(used := s.used + {i}, wordIndex := i, word := Concat(gs), round := Fresh(tiles)))
  }

  /** `setupWord`, given the draw `u` for the word choice and `rounds` for the
      shuffles: stop the timer; on completion (or the safeguard) end the game;
      otherwise start a round on a word not used before. The screen is left
      as it is. */
  function SetupWord(s: Session, u: real, rounds: seq<seq<real>>): (r: Session)
    requires IsDraw(u) && DrawsFor(Longest(s.words), rounds)
    ensures r.score == s.score && r.bound == s.bound && r.pending == s.pending
    ensures r.ticking ==>
      && 0 <= r.wordIndex < |s.words| && r.wordIndex !in s.used
      && r == Begin(StopTimer(s), r.wordIndex, rounds)
    ensures r.ticking && (exists k :: Eligible(s.words, s.used, s.bound, k)) ==> s.bound.Admits(|s.words[r.wordIndex]|)
    ensures !r.ticking ==> r == ShowGameOver(StopTimer(s), r.ending) && (r.ending == Completed || r.ending == Failed)
    ensures !r.ticking && r.ending == Completed ==> |s.used| >= |s.words| && forall k :: !Eligible(s.words, s.used, s.bound, k)
    ensures !Exhausted(s.words, s.used) && |s.used| < |s.words| ==> r.ticking
  {
    var t := StopTimer(s);
    match Select(t.words, t.used, t.bound, u)
    case AllUsed => ShowGameOver(t, Completed)
    case NothingLeft => ShowGameOver(t, Failed)
    case Chosen(i) => Begin(t, i, rounds)
  }

  /** The timer callback: one second passes; at zero, `handleTimeout` ends the
      game showing the missed word. A stopped timer does not tick. */
  function Tick(s: Session): (r: Session)
    ensures !s.ticking ==> r == s
    ensures s.ticking && s.timeLeft > 1 ==> r == s.(timeLeft := s.timeLeft - 1)
    ensures s.ticking && s.timeLeft <= 1 ==>
      && r.screen == GameOver && !r.ticking
      && r.ending == TimedOut(s.word)
      && r.score == s.score
      && r.sent == s.sent + [s.score]
  {
    if !s.ticking then s
    else
      var t := s.(timeLeft := s.timeLeft - 1);
      if t.timeLeft <= 0 then ShowGameOver(t, TimedOut(t.word)) else t
  }

  /** `checkAnswer`: a right answer (the boxes spell the current word) stops
      the timer, scores a point, recomputes the length bound and schedules the
      next word; a wrong one changes nothing but the feedback. */
  function CheckAnswer(s: Session): (r: Session)
    ensures Constructed(s.round.answer) == s.word ==>
      && r.score == s.score + 1
      && !r.ticking
      && r.bound == NextBound(s.bound, r.score)
      && r.pending == s.pending + 1
      && r.round == s.round && r.used == s.used && r.screen == s.screen && r.sent == s.sent
    ensures Constructed(s.round.answer) != s.word ==> r == s
  {
    if Constructed(s.round.answer) == s.word then
      var t := StopTimer(s).(score := s.score + 1);
      t.(bound := NextBound(t.bound, t.score), pending := t.pending + 1)
    else s
  }

  /** `handleLetterClick` on tile `k`: place it, and check the answer exactly
      when that placement filled the last empty box. */
  function ClickTile(s: Session, k: nat): (r: Session)
    ensures !CanPlace(s.round, k) ==> r == s
    ensures CanPlace(s.round, k) ==> r.round == Place(s.round, k)
    ensures r.score != s.score ==>
      CanPlace(s.round, k) && Complete(r.round.answer) && Constructed(r.round.answer) == s.word && r.score == s.score + 1
    ensures CanPlace(s.round, k) && !Complete(Place(s.round, k).answer) ==> r == s.(round := Place(s.round, k))
    ensures CanPlace(s.round, k) && Complete(Place(s.round, k).answer) ==> r == CheckAnswer(s.(round := Place(s.round, k)))
  {
    if !CanPlace(s.round, k) then s
    else
      var t := s.(round := Place(s.round, k));
      if Complete(t.round.answer) then CheckAnswer(t) else t
  }

  /** `handleAnswerBoxClick` on box `i`: only the board changes, and it
      stays consistent; no score, no check, the timer runs on. */
  function ClickBox(s: Session, i: nat): (r: Session)
    ensures r == s.(round := r.round)
    ensures r.round == Remove(s.round, i)
    ensures Consistent(s.round) ==> Consistent(r.round)
    ensures r.score == s.score && r.screen == s.screen && r.word == s.word
    ensures r.ticking == s.ticking && r.timeLeft == s.timeLeft && r.pending == s.pending && r.sent == s.sent
  {
    assert Consistent(s.round) ==> Consistent(Remove(s.round, i)) by {
      if Consistent(s.round) {
        RemoveKeepsConsistent(s.round, i);
      }
    }
    s.(round := Remove(s.round, i))
  }

  /** `clearAttempt`: a consistent board goes back to the board the round
      started with; the timer keeps running and nothing is scored. */
  function ClearAttempt(s: Session): (r: Session)
    ensures r == s.(round := r.round)
    ensures r.round.tiles == s.round.tiles
    ensures Consistent(s.round) && |s.round.answer| == |s.round.tiles| ==> r.round == Fresh(s.round.tiles)
    ensures r.score == s.score && r.screen == s.screen && r.word == s.word
    ensures r.ticking == s.ticking && r.timeLeft == s.timeLeft && r.pending == s.pending && r.sent == s.sent
  {
    assert Consistent(s.round) && |s.round.answer| == |s.round.tiles| ==> Clear(s.round) == Fresh(s.round.tiles) by {
      if Consistent(s.round) && |s.round.answer| == |s.round.tiles| {
        ClearGivesFresh(s.round);
      }
    }
    s.(round := Clear(s.round))
  }

  // ----- Events -----

  /** The things that can happen to the page. `SetupDue` is the firing of a
      `setTimeout(setupWord, ...)` (100 ms after a start, 1200 ms after a right
      answer), carrying the `Math.random()` draws that `setupWord` makes. */
  datatype Event =
    | WordsArrived(result: Fetch)
    | StartPressed
    | PlayAgainPressed
    | GoToStartPressed
    | TileClicked(tile: nat)
    | BoxClicked(box: nat)
    | ClearPressed
    | SecondElapsed
    | SetupDue(u: real, rounds: seq<seq<real>>)

  /** The random draws an event carries are ones `Math.random()` can produce,
      enough of them for any word of the list. */
  predicate Feasible(s: Session, e: Event) {
    e.SetupDue? ==> IsDraw(e.u) && DrawsFor(Longest(s.words), e.rounds)
  }

  /** One event. Buttons, tiles and boxes respond only while their screen is
      shown (hidden elements cannot be clicked); the word list arrives once;
      ticks run while the interval is set; a scheduled `setupWord` runs
      whatever the screen, since nothing cancels it. */
  function Step(s: Session, e: Event): (r: Session)
    requires Feasible(s, e)
    ensures e.WordsArrived? && (s.screen != Loading || s.fetched) ==> r == s
    ensures e.StartPressed? && s.screen != Start ==> r == s
    ensures (e.PlayAgainPressed? || e.GoToStartPressed?) && s.screen != GameOver ==> r == s
    ensures (e.TileClicked? || e.BoxClicked? || e.ClearPressed?) && s.screen != Playing ==> r == s
    ensures e.SecondElapsed? && !s.ticking ==> r == s
    ensures r.username == s.username
    ensures !e.WordsArrived? ==> r.words == s.words
  {
    match e
    case WordsArrived(result) => if s.screen == Loading && !s.fetched then Load(s, result) else s
    case StartPressed => if s.screen == Start then StartGame(s) else s
    case PlayAgainPressed => if s.screen == GameOver then StartGame(s) else s
    case GoToStartPressed => if s.screen == GameOver then ShowStart(s) else s
    case TileClicked(k) => if s.screen == Playing then ClickTile(s, k) else s
    case BoxClicked(i) => if s.screen == Playing then ClickBox(s, i) else s
    case ClearPressed => if s.screen == Playing then ClearAttempt(s) else s
    case SecondElapsed => Tick(s)
    case SetupDue(u, rounds) => RunSetup(s, u, rounds)
  }

  /** A scheduled `setupWord` fires: one fewer is pending and it runs,
      whatever the screen. It either deals an unused word on the screen
      shown, or ends the game and reports the score. With nothing pending
      nothing happens. */
  function RunSetup(s: Session, u: real, rounds: seq<seq<real>>): (r: Session)
    requires IsDraw(u) && DrawsFor(Longest(s.words), rounds)
    ensures s.pending == 0 ==> r == s
    ensures s.pending > 0 ==> r.pending == s.pending - 1 && r.score == s.score
    ensures s.pending > 0 && r.ticking ==>
      && r.screen == s.screen && r.timeLeft == TimeLimit
      && 0 <= r.wordIndex < |s.words| && r.wordIndex !in s.used && r.used == s.used + {r.wordIndex}
    ensures s.pending > 0 && !r.ticking ==>
      && r.screen == GameOver && r.sent == s.sent + [s.score]
      && r.highscores == Save(s.highscores, Entry(s.username, s.score))
  {
    if s.pending == 0 then s else SetupWord(s.(pending := s.pending - 1), u, rounds)
  }

  // ----- The session invariant -----

  /** What every reachable session satisfies: once past loading there are
      words; used indices name words; the bound is the table's bound for the
      score; the board is consistent and has one box per tile; a running
      timer has time left and a current word; and the current word, when
      there is one, is a used word whose graphemes the tiles rearrange.
      Before the list arrives nothing has been played. */
  predicate Valid(s: Session) {
    && (!s.fetched ==> s.screen == Loading)
    && (s.screen == Loading ==> s.pending == 0 && s.used == {} && s.wordIndex == -1 && !s.ticking)
    && (s.screen != Loading ==> |s.words| > 0)
    && Below(s.used, |s.words|)
    && s.bound == NextBound(InitialBound, s.score)
    && Consistent(s.round)
    && |s.round.answer| == |s.round.tiles|
    && (s.ticking ==> 0 < s.timeLeft <= TimeLimit && s.wordIndex >= 0)
    && (s.wordIndex < 0 ==> s.wordIndex == -1 && s.round == Blank && s.word == "")
    && (s.wordIndex >= 0 ==>
          && s.wordIndex < |s.words|
          && s.wordIndex in s.used
          && s.word == Concat(s.words[s.wordIndex])
          && multiset(s.round.tiles) == multiset(s.words[s.wordIndex]))
  }

  // ----- The invariant is kept by every event -----

  lemma BlankConsistent()
    ensures Consistent(Blank)
  {
    assert Origins(Blank.answer) == {};
    assert UsedTiles(Blank.used) == {};
  }

  lemma StartGameKeepsValid(s: Session)
    requires Valid(s) && s.screen != Loading
    ensures Valid(StartGame(s))
  {
    BlankConsistent();
    NextBoundAtZero(InitialBound);
  }

  lemma LoadKeepsValid(s: Session, result: Fetch)
    requires Valid(s) && s.screen == Loading && !s.fetched
    ensures Valid(Load(s, result))
  {
  }

  lemma CheckAnswerKeepsValid(s: Session)
    requires Valid(s) && s.screen != Loading
    ensures Valid(CheckAnswer(s))
  {
    if Constructed(s.round.answer) == s.word {
      NextBoundTable(s.bound, s.score + 1);
      NextBoundTable(InitialBound, s.score + 1);
    }
  }

  lemma ClickTileKeepsValid(s: Session, k: nat)
    requires Valid(s) && s.screen != Loading
    ensures Valid(ClickTile(s, k))
  {
    PlaceKeepsConsistent(s.round, k);
    if CanPlace(s.round, k) {
      CheckAnswerKeepsValid(s.(round := Place(s.round, k)));
    }
  }

  lemma ClickBoxKeepsValid(s: Session, i: nat)
    requires Valid(s)
    ensures Valid(ClickBox(s, i))
  {
    RemoveKeepsConsistent(s.round, i);
  }

  lemma ClearKeepsValid(s: Session)
    requires Valid(s)
    ensures Valid(ClearAttempt(s))
  {
    ClearGivesFresh(s.round);
    if s.wordIndex < 0 {
      assert Clear(s.round) == Blank;
    }
  }

  lemma GameOverKeepsValid(s: Session, ending: Ending)
    requires Valid(StopTimer(s)) && s.screen != Loading
    ensures Valid(ShowGameOver(s, ending))
  {
  }

  lemma BeginKeepsValid(s: Session, i: nat, rounds: seq<seq<real>>)
    requires Valid(s) && s.screen != Loading
    requires i < |s.words| && DrawsFor(|s.words[i]|, rounds)
    ensures Valid(Begin(s, i, rounds))
  {
    var r := Begin(s, i, rounds);
    assert Below(r.used, |r.words|);
    DealtRoundValid(r);
  }

  /** A session on a screen past loading, with a freshly dealt used word
      and a full countdown, satisfies the invariant. */
  lemma DealtRoundValid(r: Session)
    requires r.fetched && r.screen != Loading && |r.words| > 0
    requires Below(r.used, |r.words|) && r.bound == NextBound(InitialBound, r.score)
    requires r.ticking && r.timeLeft == TimeLimit
    requires 0 <= r.wordIndex < |r.words| && r.wordIndex in r.used
    requires r.word == Concat(r.words[r.wordIndex])
    requires multiset(r.round.tiles) == multiset(r.words[r.wordIndex]) && r.round == Fresh(r.round.tiles)
    ensures Valid(r)
  {
  }

  lemma SetupWordKeepsValid(s: Session, u: real, rounds: seq<seq<real>>)
    requires Valid(s) && s.screen != Loading
    requires IsDraw(u) && DrawsFor(Longest(s.words), rounds)
    ensures Valid(SetupWord(s, u, rounds))
  {
    var r := SetupWord(s, u, rounds);
    if r.ticking {
      BeginKeepsValid(StopTimer(s), r.wordIndex, rounds);
    } else {
      GameOverKeepsValid(StopTimer(s), r.ending);
    }
  }

  /** Every event keeps the session invariant. */
  lemma StepKeepsValid(s: Session, e: Event)
    requires Valid(s) && Feasible(s, e)
    ensures Valid(Step(s, e))
  {
    match e
    case WordsArrived(result) =>
      if s.screen == Loading && !s.fetched {
        LoadKeepsValid(s, result);
      }
    case StartPressed =>
      if s.screen == Start {
        StartGameKeepsValid(s);
      }
    case PlayAgainPressed =>
      if s.screen == GameOver {
        StartGameKeepsValid(s);
      }
    case GoToStartPressed =>
    case TileClicked(k) =>
      if s.screen == Playing {
        ClickTileKeepsValid(s, k);
      }
    case BoxClicked(i) =>
      if s.screen == Playing {
        ClickBoxKeepsValid(s, i);
      }
    case ClearPressed =>
      if s.screen == Playing {
        ClearKeepsValid(s);
      }
    case SecondElapsed =>
      if s.ticking && s.timeLeft <= 1 {
        GameOverKeepsValid(s.(timeLeft := s.timeLeft - 1), TimedOut(s.word));
      }
    case SetupDue(u, rounds) =>
      RunSetupKeepsValid(s, u, rounds);
  }

  lemma RunSetupKeepsValid(s: Session, u: real, rounds: seq<seq<real>>)
    requires Valid(s) && IsDraw(u) && DrawsFor(Longest(s.words), rounds)
    ensures Valid(RunSetup(s, u, rounds))
  {
    if s.pending > 0 {
      SetupWordKeepsValid(s.(pending := s.pending - 1), u, rounds);
    }
  }

  // ----- Properties of the game flow -----

  /** On the game-over screen, Play again starts a new game with the first
      word scheduled, and Go to start shows the start screen keeping the
      final score on record. */
  lemma GameOverButtons(s: Session)
    requires s.screen == GameOver && |s.words| > 0
    ensures var r := Step(s, PlayAgainPressed);
      && r.screen == Playing && r.score == 0 && r.used == {} && !r.ticking
      && r.pending == s.pending + 1 && r.sent == s.sent && r.highscores == s.highscores
    ensures var r := Step(s, GoToStartPressed);
      && r.screen == Start && !r.ticking && r.score == s.score
      && r.pending == s.pending && r.sent == s.sent && r.highscores == s.highscores
  {
  }

  /** While playing, Clear gives back the board the round started with and
      leaves the countdown running. */
  lemma ClearWhilePlaying(s: Session)
    requires Valid(s) && s.screen == Playing
    ensures var r := Step(s, ClearPressed);
      && r.round == Fresh(s.round.tiles)
      && r.ticking == s.ticking && r.timeLeft == s.timeLeft && r.score == s.score
  {
  }

  /** A tick of a running countdown with time to spare takes one second off
      and changes nothing else. */
  lemma TickCountsDown(s: Session)
    requires s.ticking && s.timeLeft > 1
    ensures Step(s, SecondElapsed) == s.(timeLeft := s.timeLeft - 1)
  {
  }

  /** A `setupWord` left pending when the game already ended still runs:
      with every word used it ends the game again, saving and sending the
      same score a second time. */
  lemma StaleSetupReportsAgain(s: Session, u: real, rounds: seq<seq<real>>)
    requires Valid(s) && s.screen == GameOver && s.pending > 0
    requires Exhausted(s.words, s.used)
    requires IsDraw(u) && DrawsFor(Longest(s.words), rounds)
    ensures var r := Step(s, SetupDue(u, rounds));
      && r.screen == GameOver && r.ending == Completed && r.score == s.score
      && r.pending == s.pending - 1
      && r.sent == s.sent + [s.score]
      && r.highscores == Save(s.highscores, Entry(s.username, s.score))
  {
    SetupEndsOnlyWhenExhausted(s.(pending := s.pending - 1), u, rounds);
  }

  /** `n` timer callbacks with nothing else happening. */
  function Ticks(s: Session, n: nat): Session
    decreases n
  {
    if n == 0 then s else Step(Ticks(s, n - 1), SecondElapsed)
  }

  lemma {:induction false} TicksCountDown(s: Session, n: nat)
    requires s.ticking && n < s.timeLeft
    ensures Ticks(s, n) == s.(timeLeft := s.timeLeft - n)
    decreases n
  {
    if n > 0 {
      TicksCountDown(s, n - 1);
    }
  }

  /** Left alone, a running round times out after exactly the seconds left:
      the game ends on the game-over screen showing the missed word, the
      score is what it was, the timer is stopped, the score is saved to the
      leaderboard and sent to the host. */
  lemma TimeoutEndsGame(s: Session, n: nat)
    requires s.ticking && s.timeLeft == n > 0
    ensures var r := Ticks(s, n);
      && r.screen == GameOver && !r.ticking
      && r.ending == TimedOut(s.word)
      && r.score == s.score
      && r.sent == s.sent + [s.score]
      && r.highscores == Save(s.highscores, Entry(s.username, s.score))
  {
    TicksTimeout(s, n);
    LastTick(s.(timeLeft := 1));
  }

  /** Until then the round goes on. */
  lemma RunningBeforeTimeout(s: Session, n: nat)
    requires s.ticking && n < s.timeLeft
    ensures Ticks(s, n).screen == s.screen && Ticks(s, n).ticking && Ticks(s, n).sent == s.sent
  {
    TicksCountDown(s, n);
  }

  lemma TicksTimeout(s: Session, n: nat)
    requires s.ticking && s.timeLeft == n > 0
    ensures Ticks(s, n) == Tick(s.(timeLeft := 1))
  {
    TicksCountDown(s, n - 1);
  }

  /** The last second of a running timer ends the game. */
  lemma LastTick(s: Session)
    requires s.ticking && s.timeLeft == 1
    ensures var r := Tick(s);
      && r.screen == GameOver && !r.ticking
      && r.ending == TimedOut(s.word)
      && r.score == s.score
      && r.sent == s.sent + [s.score]
      && r.highscores == Save(s.highscores, Entry(s.username, s.score))
  {
  }

  /** Once the timer is stopped, ticks change nothing. */
  lemma {:induction false} StoppedTimerIsInert(s: Session, n: nat)
    requires !s.ticking
    ensures Ticks(s, n) == s
    decreases n
  {
    if n > 0 {
      StoppedTimerIsInert(s, n - 1);
    }
  }

  /** Within a game the score only grows, one point at a time, and only when a
      tile click completes a right answer; only starting a game resets it. */
  lemma ScoreStepsByOne(s: Session, e: Event)
    requires Feasible(s, e)
    requires !e.StartPressed? && !e.PlayAgainPressed?
    ensures s.score <= Step(s, e).score <= s.score + 1
    ensures Step(s, e).score == s.score + 1 ==>
      && e.TileClicked? && s.screen == Playing
      && Complete(Step(s, e).round.answer) && Constructed(Step(s, e).round.answer) == s.word
  {
  }

  /** What a transition from `s` to `r` reports: either nothing, or the
      game ends and the current score is saved and sent exactly once; and
      entering the game-over screen always reports. */
  predicate Reports(s: Session, r: Session) {
    && (|| (r.sent == s.sent && r.highscores == s.highscores)
        || (&& r.screen == GameOver && !r.ticking && r.score == s.score
            && r.sent == s.sent + [s.score]
            && r.highscores == Save(s.highscores, Entry(s.username, s.score))))
    && (s.screen != GameOver && r.screen == GameOver ==> r.sent == s.sent + [s.score])
  }

  /** The score sent to the host and saved to the leaderboard: every event
      either reports nothing, or ends the game and reports the current score
      exactly once; reaching the game-over screen always reports. */
  lemma GameOverReports(s: Session, e: Event)
    requires Feasible(s, e)
    ensures Reports(s, Step(s, e))
  {
    match e
    case SecondElapsed => TickReports(s);
    case SetupDue(u, rounds) => SetupReports(s, u, rounds);
    case _ => OtherReports(s, e);
  }

  lemma TickReports(s: Session)
    ensures Reports(s, Tick(s))
  {
  }

  lemma SetupReports(s: Session, u: real, rounds: seq<seq<real>>)
    requires IsDraw(u) && DrawsFor(Longest(s.words), rounds)
    ensures Reports(s, RunSetup(s, u, rounds))
  {
  }

  lemma OtherReports(s: Session, e: Event)
    requires Feasible(s, e) && !e.SecondElapsed? && !e.SetupDue?
    ensures Reports(s, Step(s, e))
  {
  }

  /** On a session reached by play, `setupWord` never takes the safeguard
      branch, and it ends the game exactly when every word has been used. */
  lemma SetupEndsOnlyWhenExhausted(s: Session, u: real, rounds: seq<seq<real>>)
    requires Valid(s)
    requires IsDraw(u) && DrawsFor(Longest(s.words), rounds)
    ensures var r := SetupWord(s, u, rounds);
      && (!r.ticking <==> Exhausted(s.words, s.used))
      && (!r.ticking ==> r.ending == Completed && r.screen == GameOver)
  {
    SelectWithinPool(s.words, s.used, s.bound, u);
  }

  /** After a right answer, and until the scheduled next word arrives, the
      tiles stay clickable: taking any grapheme back out and clicking its
      tile again rebuilds the same right answer and scores the word a second
      time, scheduling a second `setupWord`. */
  lemma SolvedRoundScoresAgain(s: Session, i: nat)
    requires Valid(s) && s.screen == Playing
    requires Complete(s.round.answer) && Constructed(s.round.answer) == s.word
    requires i < |s.round.answer|
    ensures var r := Step(Step(s, BoxClicked(i)), TileClicked(s.round.answer[i].origin));
      && r.score == s.score + 1
      && r.pending == s.pending + 1
      && r.round == s.round
  {
    var o := s.round.answer[i].origin;
    var s1 := Step(s, BoxClicked(i));
    PlaceRedoesRemove(s.round, i);
    assert o in Origins(s.round.answer);
    assert !s1.round.used[o];
    assert s1.round.answer[i].Empty?;
    assert CanPlace(s1.round, o);
  }

  // ----- Every round can be won -----

  /** Clicking the tiles `ks` in order. */
  function Clicks(s: Session, ks: seq<nat>): Session
    decreases |ks|
  {
    if |ks| == 0 then s else Clicks(Step(s, TileClicked(ks[0])), ks[1..])
  }

  lemma {:induction false} SolveFrom(s: Session, j: nat) returns (ks: seq<nat>)
    requires Valid(s) && s.screen == Playing && s.wordIndex >= 0
    requires SpelledUpTo(s.round, s.words[s.wordIndex], j) && j < |s.words[s.wordIndex]|
    ensures |ks| == |s.words[s.wordIndex]| - j
    ensures var r := Clicks(s, ks);
      && Valid(r) && r.screen == Playing && !r.ticking
      && r.score == s.score + 1 && r.pending == s.pending + 1
      && r.words == s.words && r.used == s.used && r.wordIndex == s.wordIndex
      && r.sent == s.sent && r.highscores == s.highscores && r.username == s.username
    decreases |s.words[s.wordIndex]| - j
  {
    var gs := s.words[s.wordIndex];
    var k := NextTile(s.round, gs, j);
    var s1 := Step(s, TileClicked(k));
    ClickTileKeepsValid(s, k);
    if j + 1 == |gs| {
      SpelledAll(Place(s.round, k), gs);
      ks := [k];
      assert Clicks(s, ks) == Clicks(s1, []);
    } else {
      assert s1 == s.(round := Place(s.round, k));
      var rest := SolveFrom(s1, j + 1);
      ks := [k] + rest;
      assert ks[1..] == rest;
    }
  }

  /** Every word of at least one grapheme can be won: on the board
      `setupWord` lays out, some order of tile clicks spells the word, scores
      the point, stops the timer and schedules the next word. */
  lemma RoundIsWinnable(s: Session) returns (ks: seq<nat>)
    requires Valid(s) && s.screen == Playing && s.wordIndex >= 0
    requires s.round == Fresh(s.round.tiles) && |s.words[s.wordIndex]| > 0
    ensures |ks| == |s.words[s.wordIndex]|
    ensures var r := Clicks(s, ks);
      && Valid(r) && r.screen == Playing && !r.ticking
      && r.score == s.score + 1 && r.pending == s.pending + 1
      && r.words == s.words && r.used == s.used && r.wordIndex == s.wordIndex
      && r.sent == s.sent && r.highscores == s.highscores && r.username == s.username
  {
    var gs := s.words[s.wordIndex];
    assert |s.round.tiles| == |gs| by {
      assert |multiset(s.round.tiles)| == |multiset(gs)|;
    }
    ks := SolveFrom(s, 0);
  }
}

=== FILE: text.dfy ===
/** Words as the grapheme segmenter delivers them.

    The game never looks inside a grapheme: it segments each word once
    (Intl.Segmenter with grapheme granularity), shuffles the segments and
    compares joined strings. A word is therefore modelled by its grapheme
    sequence, and the word's text is the concatenation of that sequence,
    so segmenting and re-joining a word gives the word back by construction.
 */
module Text {

  /** A word: its user-perceived characters, in order. */
  type Word = seq<string>

  /** `graphemes.join('')`. */
  function Concat(gs: seq<string>): string
  {
    if |gs| == 0 then "" else gs[0] + Concat(gs[1..])
  }

  /** Joining is a monoid homomorphism from grapheme sequences to strings. */
  lemma {:induction false} ConcatAppend(a: seq<string>, b: seq<string>)
    ensures Concat(a + b) == Concat(a) + Concat(b)
    decreases |a|
  {
    if |a| == 0 {
      assert a + b == b;
    } else {
      assert (a + b)[1..] == a[1..] + b;
      ConcatAppend(a[1..], b);
    }
  }

  /** A single grapheme joins to itself. */
  lemma ConcatSingle(g: string)
    ensures Concat([g]) == g
  {
    assert [g][1..] == [];
  }
}

/** Draws of `Math.random()` and the index they select.

    Every random choice in the game has the shape
    `Math.floor(Math.random() * n)`; the draw is an input to the model.
 */
module Random {

  /** A value `Math.random()` can return: a real in [0, 1). */
  predicate IsDraw(u: real) {
    0.0 <= u < 1.0
  }

  predicate AllDraws(us: seq<real>) {
    forall i :: 0 <= i < |us| ==> IsDraw(us[i])
  }

  /** `Math.floor(u * n)` for a draw `u`: an index into a collection of size `n`. */
  function Scale(u: real, n: nat): (k: nat)
    requires IsDraw(u) && n > 0
    ensures k < n
  {
    var x := u * n as real;
    assert 0.0 <= x < n as real by {
      assert u * n as real < 1.0 * n as real;
    }
    x.Floor
  }

  /** Every index of a non-empty collection is selected by some draw,
      so the game's uniform choices can reach every candidate. */
  lemma ScaleReaches(j: nat, n: nat)
    requires j < n
    ensures IsDraw(j as real / n as real)
    ensures Scale(j as real / n as real, n) == j
  {
    var u := j as real / n as real;
    assert u * n as real == j as real;
  }
}

=== FILE: wordpool.dfy ===
/** Choosing the next word (web/script.js, the selection half of `setupWord`). */
module WordPool {
  import opened Text
  import opened Random
  import opened Difficulty

  /** What the selection step of `setupWord` decides.
      `AllUsed` is the completion branch; `NothingLeft` is `setupWord`'s
      "should not happen" safeguard branch. */
  datatype Selection = Chosen(index: nat) | AllUsed | NothingLeft

  /** Word `i` exists, is unused, and its grapheme count fits `bound`. */
  predicate Eligible(pool: seq<Word>, used: set<nat>, bound: Bound, i: nat) {
    i < |pool| && i !in used && bound.Admits(|pool[i]|)
  }

  /** The loop `for (let i = 0; i < n; i++) if (!used.has(i) && fits) push(i)`
      over the first `n` words: the eligible indices in ascending order. */
  function Candidates(pool: seq<Word>, used: set<nat>, bound: Bound, n: nat): (r: seq<nat>)
    requires n <= |pool|
    ensures forall k: nat :: k in r <==> k < n && Eligible(pool, used, bound, k)
    ensures forall a :: 0 <= a < |r| ==> r[a] < n && Eligible(pool, used, bound, r[a])
    ensures forall a, b :: 0 <= a < b < |r| ==> r[a] < r[b]
    decreases n
  {
    if n == 0 then []
    else
      var rest := Candidates(pool, used, bound, n - 1);
      if Eligible(pool, used, bound, n - 1) then rest + [n - 1] else rest
  }

  /** Every index below `|pool|` is in `used`. */
  predicate Exhausted(pool: seq<Word>, used: set<nat>) {
    forall k :: 0 <= k < |pool| ==> k in used
  }

  /** The selection: a random in-budget unused word; failing that, completion
      when `used.size >= words.length`; failing that, a random unused word of
      any length (the difficulty cap is dropped rather than stalling). Both
      random picks are `Math.floor(u * candidates.length)` for the one draw `u`. */
  function Select(pool: seq<Word>, used: set<nat>, bound: Bound, u: real): (r: Selection)
    requires IsDraw(u)
    ensures r.Chosen? ==> r.index < |pool| && r.index !in used
    ensures r.Chosen? && (exists k :: Eligible(pool, used, bound, k)) ==> bound.Admits(|pool[r.index]|)
    ensures (exists k :: Eligible(pool, used, bound, k)) ==> r.Chosen?
    ensures r.AllUsed? ==> |used| >= |pool|
    ensures r.NothingLeft? ==> |used| < |pool| && Exhausted(pool, used)
    ensures !Exhausted(pool, used) && |used| < |pool| ==> r.Chosen?
  {
    var within := Candidates(pool, used, bound, |pool|);
    if |within| > 0 then
      Chosen(within[Scale(u, |within|)])
    else if |used| >= |pool| then
      AllUsed
    else
      var any := Candidates(pool, used, Infinite, |pool|);
      if |any| > 0 then Chosen(any[Scale(u, |any|)])
      else
        assert forall k: nat :: k < |pool| && k !in used ==> Eligible(pool, used, Infinite, k);
        NothingLeft
  }

  /** Every member of `used` indexes a word below `n`. */
  predicate Below(used: set<nat>, n: nat) {
    forall i :: i in used ==> i < n
  }

  /** A set of indices below `n` has at most `n` members, and exactly `n`
      only when it holds all of them. */
  lemma {:induction false} BelowSize(used: set<nat>, n: nat)
    requires Below(used, n)
    ensures |used| <= n
    ensures |used| == n <==> forall k :: 0 <= k < n ==> k in used
  {
    if n > 0 {
      var rest := used - {n - 1};
      BelowSize(rest, n - 1);
      if |used| == n {
        assert n - 1 in used;
        assert |rest| == n - 1;
      }
      if forall k :: 0 <= k < n ==> k in used {
        assert n - 1 in used;
        assert forall k :: 0 <= k < n - 1 ==> k in rest;
      }
    } else {
      assert used == {};
    }
  }

  /** With a used set drawn from the pool's own indices (the only kind the
      game produces), the safeguard branch is dead and completion is reported
      exactly when every word has been used. */
  lemma SelectWithinPool(pool: seq<Word>, used: set<nat>, bound: Bound, u: real)
    requires IsDraw(u)
    requires Below(used, |pool|)
    ensures !Select(pool, used, bound, u).NothingLeft?
    ensures Select(pool, used, bound, u).AllUsed? <==> Exhausted(pool, used)
  {
    BelowSize(used, |pool|);
  }

  /** Each in-budget unused word is chosen by some draw: the preferred pick
      ranges over all of them. */
  lemma SelectReachesEveryEligible(pool: seq<Word>, used: set<nat>, bound: Bound, i: nat)
    requires Eligible(pool, used, bound, i)
    ensures exists u :: IsDraw(u) && Select(pool, used, bound, u) == Chosen(i)
  {
    var within := Candidates(pool, used, bound, |pool|);
    assert i in within;
    var j :| 0 <= j < |within| && within[j] == i;
    ScaleReaches(j, |within|);
    var u := j as real / |within| as real;
    assert Select(pool, used, bound, u) == Chosen(i);
  }

  /** When no unused word fits the bound, every unused word is chosen by some
      draw: the fallback ignores word length entirely. */
  lemma SelectFallbackReachesEveryUnused(pool: seq<Word>, used: set<nat>, bound: Bound, i: nat)
    requires forall k :: !Eligible(pool, used, bound, k)
    requires i < |pool| && i !in used && |used| < |pool|
    ensures exists u :: IsDraw(u) && Select(pool, used, bound, u) == Chosen(i)
  {
    var any := Candidates(pool, used, Infinite, |pool|);
    assert Eligible(pool, used, Infinite, i);
    assert i in any;
    var j :| 0 <= j < |any| && any[j] == i;
    ScaleReaches(j, |any|);
    var u := j as real / |any| as real;
    assert Select(pool, used, bound, u) == Chosen(i);
  }
}
